=== FILE: README.md ===
# Hostel complaint resolver — Dafny model of the backend services

This project models the rule-bearing core of the hostel complaint resolver's
Spring backend:

- the complaint lifecycle of `ComplaintService`: creation, automatic priority, assignment, resolution, feedback with proof, the two kinds of reopening (escalation), revert, and the hourly priority-ageing pass;
- the per-complaint, hash-chained audit log of `BlockchainService` and `Block`: appending a transaction and verifying a chain;
- registration with role-derived ids and the password-reset token round of `UserService`;
- the role gate and the non-student listing of `AdminService`;
- posting an item and marking it sold in `ResaleService`.

Everything is functional. A complaint, user, block or item is an immutable
record. Each service method is a pure function. It returns either the error
the method throws or the updated record, and the updated table or ledger.

Repositories become values:
- the complaints and resale tables are maps under an identity key (`Storage.Repo`);
- the users table is the sequence of rows `findAll` returns, taken to be in insertion order;
- the ledger maps a complaint id string to its chain of blocks.

Time is a whole number of hours. Values the code draws from the environment are
parameters: random UUIDs, `LocalDateTime.now()` renderings, SHA-256, and BCrypt
output.

Modules (one file each): `Wrappers`, `Text` (`contains`, `toLowerCase`,
truncation), `Decimal` (`String.valueOf`, `%03d`), `Hex` (`%02x`), `Storage`,
`Users`, `AdminService`, `ResaleService`, `Ledger`, `ComplaintService`, and
`Backend`. `Backend` wires the complaint operations to the tables and the
ledger as the running application does.

The model follows what the services do, which differs in places from what the
status names suggest:

- `ComplaintStatus` (model/ComplaintStatus.java:7-8) describes PENDING_APPROVAL as "staff marked done, waiting for warden" and RESOLVED as "warden approved". No service ever sets PENDING_APPROVAL, and there is no approval step and no "start progress" step: `resolveComplaint` lets the assigned staff member set RESOLVED directly, and `revertComplaint` is the only way into IN_PROGRESS. The model's `Status` therefore has six values.
- CLOSED is not final. `assignComplaint` and `resolveComplaint` do not check the prior status, so a CLOSED complaint can be reassigned or resolved again (`ClosedCanBeReassigned`).
- Role checks on the HTTP endpoints are made by the framework, outside the services. The model keeps only the checks the services make themselves.

## Model

| member | source | states |
|---|---|---|
| ComplaintService.CreateComplaint | backend/src/main/java/com/hostelcomplaintresolver/backend/service/ComplaintService.java:48-75 | fails exactly when the student id is unknown; a new complaint is RAISED and unassigned, with no rating, proof or feedback, keeps the request's description, category and time slot, carries the student's room and the priority derived from its category, and is logged as RAISED by the student with the text "Complaint raised by <name> for room <room>" |
| ComplaintService.DeterminePriority | backend/src/main/java/com/hostelcomplaintresolver/backend/service/ComplaintService.java:98 | a missing category is Medium |
| ComplaintService.DeterminePriorityByKeywords | backend/src/main/java/com/hostelcomplaintresolver/backend/service/ComplaintService.java:97-103 | High exactly when the lower-cased category mentions "electr" or "plumb"; Low exactly when it mentions none of those but one of "clean", "furni", "carpen"; Medium otherwise |
| ComplaintService.DeterminePriorityIgnoresCase | backend/src/main/java/com/hostelcomplaintresolver/backend/service/ComplaintService.java:99 | the priority of a category equals that of its lower-cased form |
| ComplaintService.HighCategoryDominates | backend/src/main/java/com/hostelcomplaintresolver/backend/service/ComplaintService.java:100 | a High category stays High whatever text is added around it, since the High check runs first |
| ComplaintService.Reopen | backend/src/main/java/com/hostelcomplaintresolver/backend/service/ComplaintService.java:106-118 | succeeds iff the complaint is RESOLVED; it then becomes ESCALATED with every other field unchanged and the audit entry is ("Student", ESCALATED, "Reason: " + reason); otherwise fails with not-resolved |
| ComplaintService.ReopenOnlyOnce | backend/src/main/java/com/hostelcomplaintresolver/backend/service/ComplaintService.java:110-117 | the ESCALATED complaint a reopen produced is refused by both reopen operations |
| ComplaintService.Revert | backend/src/main/java/com/hostelcomplaintresolver/backend/service/ComplaintService.java:121-134 | succeeds iff the status is ESCALATED or RESOLVED, moving it to IN_PROGRESS with nothing else changed and the audit entry ("Warden", REVERTED, "Status reverted to In Progress"); any other status fails with cannot-revert |
| ComplaintService.Assign | backend/src/main/java/com/hostelcomplaintresolver/backend/service/ComplaintService.java:145-166 | an unknown target fails with staff-not-found and an existing non-STAFF target with not-staff; otherwise records the staff member and sets ASSIGNED, with no condition on the prior status, and the audit entry is ("SYSTEM", ASSIGNED, "Complaint assigned to staff " + the staff member's name) |
| ComplaintService.ClosedCanBeReassigned | backend/src/main/java/com/hostelcomplaintresolver/backend/service/ComplaintService.java:152-157 | a CLOSED complaint can still be assigned, which returns it to ASSIGNED and keeps its rating |
| ComplaintService.Resolve | backend/src/main/java/com/hostelcomplaintresolver/backend/service/ComplaintService.java:188-208 | an unknown caller fails with staff-not-found; an existing caller who is not the complaint's assigned staff member (or none is assigned) fails with not-assigned-staff; success sets RESOLVED with nothing else changed, and the audit entry is (the caller's id, RESOLVED, "Complaint resolved by staff " + the caller's name) |
| ComplaintService.SubmitFeedback | backend/src/main/java/com/hostelcomplaintresolver/backend/service/ComplaintService.java:224-259 | succeeds iff the caller is the complaint's student, it is RESOLVED, and a proof file is given; a stranger is refused first (not-owner), then a non-RESOLVED complaint (not-resolved), then a missing proof (missing-upload); the audit entry is (the student's id, CLOSED, "Feedback submitted with proof. Rating: " + the rating in decimal); success records the rating, the feedback and the proof path and closes the complaint, changing nothing else |
| ComplaintService.FeedbackOnlyOnce | backend/src/main/java/com/hostelcomplaintresolver/backend/service/ComplaintService.java:233-249 | a second feedback on the complaint the first one closed is refused as not RESOLVED |
| ComplaintService.EscalatedDescription | backend/src/main/java/com/hostelcomplaintresolver/backend/service/ComplaintService.java:287-289 | the new description is a prefix of old description + "\n\n[ESCALATED]: " + reason: all of it when that is at most 1000 characters, otherwise exactly its first 1000 |
| ComplaintService.EscalationKeepsDescription | backend/src/main/java/com/hostelcomplaintresolver/backend/service/ComplaintService.java:287-289 | an original description of at most 1000 characters survives escalation intact as a prefix |
| ComplaintService.ReopenWithProof | backend/src/main/java/com/hostelcomplaintresolver/backend/service/ComplaintService.java:273-299 | succeeds iff the complaint is RESOLVED and a proof file is given; any other status fails with not-resolved, and a missing proof with missing-upload; success sets ESCALATED, the escalation proof path and the extended description, changing nothing else, and the audit entry is ("Student", ESCALATED, "Escalated with proof: " + reason) |
| ComplaintService.StepFollowsEdge | backend/src/main/java/com/hostelcomplaintresolver/backend/service/ComplaintService.java:106-299 | every successful operation on a consistent complaint moves along the code's transition graph, and its audit action names the status reached (REVERTED for a revert) |
| ComplaintService.EdgeTaken | backend/src/main/java/com/hostelcomplaintresolver/backend/service/ComplaintService.java:106-299 | every edge of that graph is taken by some operation, so the graph is exactly the code's |
| ComplaintService.CreatedConsistent | backend/src/main/java/com/hostelcomplaintresolver/backend/service/ComplaintService.java:52-60 | a created complaint satisfies the record invariant: there is a staff member iff the status is not RAISED, and a CLOSED complaint has a rating and a proof |
| ComplaintService.StepPreservesConsistent | backend/src/main/java/com/hostelcomplaintresolver/backend/service/ComplaintService.java:106-299 | every successful operation keeps that record invariant |
| ComplaintService.TruncDiv | backend/src/main/java/com/hostelcomplaintresolver/backend/service/ComplaintService.java:316 | Java's division truncating toward zero: floor division for non-negative hours; for negative ones the quotient is not positive and the remainder lies in (-divisor, 0] |
| ComplaintService.AgePriority | backend/src/main/java/com/hostelcomplaintresolver/backend/service/ComplaintService.java:310-329 | only the priority may change; RESOLVED and CLOSED are untouched; priority never falls and rises by at most one level; it rises iff the complaint is open and is Medium and at least 24 hours old, or Low and at least 72 hours old |
| ComplaintService.LowNeedsTwoPasses | backend/src/main/java/com/hostelcomplaintresolver/backend/service/ComplaintService.java:320-329 | an open Low complaint over 72 hours old becomes Medium on one pass and High only on the next |
| ComplaintService.EscalatePriorities | backend/src/main/java/com/hostelcomplaintresolver/backend/service/ComplaintService.java:304-335 | the pass keeps the set of complaints and ages every row by the one-complaint rule, so an open Medium complaint a day old becomes High and RESOLVED or CLOSED rows are skipped; no priority is lowered |
| Ledger.CalculateHash | backend/src/main/java/com/hostelcomplaintresolver/backend/blockchain/Block.java:30-48 | the hash is twice as long as the digest, all lower-case hex, and reads back to the digest of the block's hash input |
| Ledger.HashCoversOnlyHashedFields | backend/src/main/java/com/hostelcomplaintresolver/backend/blockchain/Block.java:32-36 | blocks that agree on index, previous hash, timestamp and each transaction's id, action and description have equal hashes |
| Ledger.UserIdNotProtected | backend/src/main/java/com/hostelcomplaintresolver/backend/blockchain/Block.java:32-36 | rewriting a transaction's user id or complaint id in any block of a valid chain leaves it valid |
| Ledger.NewBlock | backend/src/main/java/com/hostelcomplaintresolver/backend/blockchain/Block.java:21-27 | a constructed block holds exactly the one transaction, the given index, previous hash and time, and a hash equal to its own recomputed hash |
| Ledger.Append | backend/src/main/java/com/hostelcomplaintresolver/backend/blockchain/BlockchainService.java:59-67 | the chain grows by exactly one block and keeps its earlier blocks; the new block has index old length + 1, the given timestamp, previous hash "0" on an empty chain or else the last hash, the one transaction, and a self-consistent hash |
| Ledger.LogTransaction | backend/src/main/java/com/hostelcomplaintresolver/backend/blockchain/BlockchainService.java:37-70 | only the complaint's chain changes, created if absent; it becomes exactly the old chain with one block appended (index, previous hash and hash as Append states) whose transaction carries all six given fields |
| Ledger.VerifyBlockchain | backend/src/main/java/com/hostelcomplaintresolver/backend/blockchain/BlockchainService.java:82-119 | true iff the complaint has a chain and every block after the first has a stored hash equal to its recomputed hash and a previous hash equal to its predecessor's hash |
| Ledger.ShortChainValid | backend/src/main/java/com/hostelcomplaintresolver/backend/blockchain/BlockchainService.java:94 | chains of zero or one block always verify |
| Ledger.AppendPreservesValid | backend/src/main/java/com/hostelcomplaintresolver/backend/blockchain/BlockchainService.java:59-67 | appending to a chain that verifies yields a chain that verifies |
| Ledger.BuiltChainValid | backend/src/main/java/com/hostelcomplaintresolver/backend/blockchain/BlockchainService.java:59-67 | a chain made only by appends verifies |
| Ledger.BuiltChainShape | backend/src/main/java/com/hostelcomplaintresolver/backend/blockchain/BlockchainService.java:59-67 | in a chain made only by appends, block i is numbered i + 1 and holds just the i-th transaction, and block 0 has previous hash "0" |
| Ledger.TamperedBlockDetected | backend/src/main/java/com/hostelcomplaintresolver/backend/blockchain/BlockchainService.java:98-102 | a block at position 1 or later whose stored hash disagrees with its fields makes verification fail |
| Ledger.RelinkedBlockDetected | backend/src/main/java/com/hostelcomplaintresolver/backend/blockchain/BlockchainService.java:104-108 | changing the stored hash of any block that has a successor makes verification fail |
| Ledger.FirstBlockTamperUndetected | backend/src/main/java/com/hostelcomplaintresolver/backend/blockchain/BlockchainService.java:94 | block 0 may be replaced by any block with the same stored hash and the chain still verifies |
| Hex.ToHex | backend/src/main/java/com/hostelcomplaintresolver/backend/blockchain/Block.java:40-43 | two lower-case hex digits per digest byte |
| Hex.FromHexToHex | backend/src/main/java/com/hostelcomplaintresolver/backend/blockchain/Block.java:40-43 | the hex rendering reads back to the digest |
| Hex.ToHexInjective | backend/src/main/java/com/hostelcomplaintresolver/backend/blockchain/Block.java:40-43 | distinct digests give distinct hash strings |
| Decimal.ParseNatToString | backend/src/main/java/com/hostelcomplaintresolver/backend/service/ComplaintService.java:71 | the decimal rendering of an id reads back to the id |
| Decimal.Pad3 | backend/src/main/java/com/hostelcomplaintresolver/backend/service/UserService.java:69 | "%03d" denotes the number in digits, exactly three of them below 1000 and otherwise the plain decimal rendering |
| Users.GenerateRoleBasedId | backend/src/main/java/com/hostelcomplaintresolver/backend/service/UserService.java:60-70 | succeeds iff the role is WARDEN, STAFF or ADMIN; the id is the role's three-letter prefix followed by the role's user count plus one, padded to exactly three digits when shorter |
| Users.DeriveUserId | backend/src/main/java/com/hostelcomplaintresolver/backend/service/UserService.java:43-53 | a student's id is the IRN, which must be present and non-empty; any other role gets a generated id |
| Users.RegisterUser | backend/src/main/java/com/hostelcomplaintresolver/backend/service/UserService.java:31-57 | an email already registered is refused; otherwise a failure to derive the id (missing IRN, role without a prefix) is passed on; on success the table gains the new account at the end when its id is new, and otherwise the account holding that id is replaced by it |
| Users.RegisterUserOverwritesAccount | backend/src/main/java/com/hostelcomplaintresolver/backend/service/UserService.java:50-56 | a second student registering an IRN already in use replaces the first student's account, whose email disappears from the table |
| Users.RegisterUserChecked | backend/src/main/java/com/hostelcomplaintresolver/backend/service/UserService.java:31-57 | refuses a registered email; once the id is derived, succeeds iff no account holds that id, and then only appends the new account |
| Users.RegisterCheckedPreserves | backend/src/main/java/com/hostelcomplaintresolver/backend/service/UserService.java:31-57 | checked registration keeps every existing account and keeps ids and emails unique |
| Users.NextGeneratedIdDiffers | backend/src/main/java/com/hostelcomplaintresolver/backend/service/UserService.java:68-69 | after a checked registration of a role, the next generated id for that role is different |
| Users.GenerateResetToken | backend/src/main/java/com/hostelcomplaintresolver/backend/service/UserService.java:79-90 | succeeds iff the email is registered; only that user changes, getting the token and an expiry one hour ahead |
| Users.ResetPassword | backend/src/main/java/com/hostelcomplaintresolver/backend/service/UserService.java:93-105 | an unknown token is refused, as is one held by several users; with exactly one holder it succeeds iff the expiry is set and not before now, and then changes only that user: new password, token and expiry cleared |
| Users.ResetTokenSingleUse | backend/src/main/java/com/hostelcomplaintresolver/backend/service/UserService.java:101-103 | after a successful reset the same token is refused as unknown |
| Users.ResetWithinTheHour | backend/src/main/java/com/hostelcomplaintresolver/backend/service/UserService.java:85-99 | a freshly issued token resets the password iff it is presented no later than one hour after issue |
| AdminService.CreateUser | backend/src/main/java/com/hostelcomplaintresolver/backend/service/AdminService.java:23-35 | corrected: STUDENT and ADMIN requests are refused; otherwise it succeeds iff checked registration of the request does, and then only appends an account with the requested name, email, role and encoded password under a fresh role-based id |
| AdminService.CreateUserAsWritten | backend/src/main/java/com/hostelcomplaintresolver/backend/service/AdminService.java:23-35 | as written: STUDENT and ADMIN requests are refused, and every other request fails at the save because the account has no id |
| AdminService.CreateUserAsWrittenStoresNothing | backend/src/main/java/com/hostelcomplaintresolver/backend/service/AdminService.java:29-35 | as written, no request ever adds an account, including a WARDEN request |
| AdminService.CreatedAccountListed | backend/src/main/java/com/hostelcomplaintresolver/backend/service/AdminService.java:38-44 | an account the corrected createUser adds appears at the end of the non-student listing, the rest of the listing unchanged |
| AdminService.NonStudentUsers | backend/src/main/java/com/hostelcomplaintresolver/backend/service/AdminService.java:38-44 | no listed user is a student, and the listing is no longer than the table |
| AdminService.NonStudentUsersMembers | backend/src/main/java/com/hostelcomplaintresolver/backend/service/AdminService.java:41-43 | a user is listed exactly when it is in the table and is not a student |
| AdminService.NonStudentUsersAppend | backend/src/main/java/com/hostelcomplaintresolver/backend/service/AdminService.java:41-43 | the listing of two tables joined is the two listings joined |
| AdminService.NonStudentUsersKeepsOrder | backend/src/main/java/com/hostelcomplaintresolver/backend/service/AdminService.java:40-43 | the listing is a subsequence of the table, so the original order is kept |
| AdminService.NonStudentUsersCount | backend/src/main/java/com/hostelcomplaintresolver/backend/service/AdminService.java:42 | listed users plus students make up the whole table |
| ResaleService.PostItem | backend/src/main/java/com/hostelcomplaintresolver/backend/service/ResaleService.java:29-57 | succeeds iff a non-empty image is given; the new item carries the given name, category, description, owner name and contact, is unsold and posted now, its URL starts "/uploads/resale/resale_", and it takes a fresh key leaving other items alone |
| ResaleService.MarkAsSold | backend/src/main/java/com/hostelcomplaintresolver/backend/service/ResaleService.java:63-68 | succeeds iff the id exists; only that item's sold flag changes, to true |
| ResaleService.MarkAsSoldIdempotent | backend/src/main/java/com/hostelcomplaintresolver/backend/service/ResaleService.java:63-68 | marking an item sold twice gives the same table as once |
| ResaleService.PostThenSell | backend/src/main/java/com/hostelcomplaintresolver/backend/service/ResaleService.java:29-68 | a freshly posted item is unsold, and marking it sold succeeds, sets only its sold flag, and leaves every earlier item alone |
| Backend.RaiseComplaint | backend/src/main/java/com/hostelcomplaintresolver/backend/service/ComplaintService.java:48-75 | an unknown student fails and nothing else does; the created complaint is stored under the next identity key, every other complaint stays as it was, and the complaint's chain gains the creation entry |
| Backend.Execute | backend/src/main/java/com/hostelcomplaintresolver/backend/service/ComplaintService.java:106-299 | an unknown complaint id fails with complaint-not-found; otherwise the call succeeds iff the operation does, and then saves the complaint, logs its entry and leaves the users alone |
| Backend.AgePriorities | backend/src/main/java/com/hostelcomplaintresolver/backend/service/ComplaintService.java:304-335 | the hourly pass changes neither users nor ledger, keeps every complaint key, and ages each stored complaint by the one-complaint rule |
| Backend.VerifyComplaint | backend/src/main/java/com/hostelcomplaintresolver/backend/blockchain/BlockchainService.java:82-119 | a complaint's chain verifies iff it exists and every later block matches its hash and its predecessor |
| Backend.LedgerKeyInjective | backend/src/main/java/com/hostelcomplaintresolver/backend/blockchain/BlockchainService.java:50 | distinct complaint ids name distinct chains |
| Backend.RaisePreservesInvariant | backend/src/main/java/com/hostelcomplaintresolver/backend/service/ComplaintService.java:48-75 | raising keeps the state invariant: fresh identity keys, consistent complaints, a chain per complaint, and every chain verifying |
| Backend.ExecutePreservesInvariant | backend/src/main/java/com/hostelcomplaintresolver/backend/service/ComplaintService.java:106-299 | every successful lifecycle operation keeps that invariant, so the audit chains always verify |
| Backend.AgePreservesInvariant | backend/src/main/java/com/hostelcomplaintresolver/backend/service/ComplaintService.java:304-335 | the ageing pass keeps that invariant |
| Backend.ExecuteTouchesOneComplaint | backend/src/main/java/com/hostelcomplaintresolver/backend/service/ComplaintService.java:106-299 | a successful operation changes no other complaint and no other chain; its own chain gains exactly one block recording the operation's action |
| Backend.SecondFeedbackRefused | backend/src/main/java/com/hostelcomplaintresolver/backend/service/ComplaintService.java:233-235 | at the store level, a repeated feedback submission on a complaint it closed is refused |

## Left out

- HTTP controllers, the JWT filter and security configuration are left out: they are framework plumbing, and the role annotations on endpoints are enforced by the framework, not by the services.
- The Fabric gateway, e-mail sending, file-upload I/O (directory creation, `Files.copy`) and the JSON load/save of ledger files are left out. They are I/O. A failed upload copy or unreadable ledger file (which makes `verifyBlockchain` return false) is not modelled, and neither is `logTransaction` swallowing its own I/O errors.
- SHA-256 and BCrypt are foreign code. SHA-256 is the function parameter `sha`. BCrypt's salted output is passed in as the encoded password.
- The scheduler, `synchronized` and transactions are left out. Operations are atomic functions, and a failure returns nothing.
- `LocalDateTime.now()` is left out: time is a whole hour count parameter, so `ChronoUnit.HOURS.between` is a subtraction.
- ComplaintService.AgePriority: does not model minute-level precision, because hours are the model's time unit.
- Read-only repository queries are left out: `getAllComplaints`, `getComplaintsByStudent`, `getAssignedComplaints`, `getUserById`, `findByEmail`, `getAllActiveItems`. They only project stored rows.
- `ResaleItem.price` is left out. It is a floating-point field with no logic.
- Column constraints enforced only by the database are left out: the non-null room number, the non-null category, the 1000-character description at creation, and the 1000-character feedback. So are the complaint's never-set `assignedTo` field and the e-mail text.
- Java `null` is modelled only where the code tests for it or dereferences it: category, IRN, room number, uploads, reset expiry. Other request fields, including the role, are assumed present. A missing proof file in `submitFeedbackWithProof` and `reopenComplaintWithProof` makes `proof.getInputStream()` throw before anything is saved or logged; the model names that failure `MissingUpload`.
- `Role.java` is not part of this model. The roles STUDENT, WARDEN, STAFF and ADMIN are the ones the services reference.
- `toLowerCase` is modelled for ASCII letters only, and a string's length counts characters rather than UTF-16 units.
- `toLowerCase` in priority selection uses the JVM's default locale; the model assumes a non-Turkic locale. Under a Turkish or Azeri locale "FURNITURE" lowers to a dotless-i spelling, matches no keyword and gets MEDIUM, which the model does not reproduce.
- `findAll` on the users table has no ORDER BY, so the database may return rows in any order; the model assumes insertion order. `Users.Save`, `Users.RegisterUser` and `AdminService.CreatedAccountListed` state positions (appended last, replaced in place) that depend on this assumption.
- Block indices and counts are unbounded integers. Java `int`/`long` overflow is out of reach for realistic chains.

## Findings

| source | as written | input that shows it | evidently intended | confidence | as-written member | corrected member |
|---|---|---|---|---|---|---|
| backend/src/main/java/com/hostelcomplaintresolver/backend/service/UserService.java:50-56 | registration checks only the email, then saves by id; the save merges into any existing row with the same id | a student account with IRN "IRN1" and email a@hostel exists, and a second student registers IRN "IRN1" with email b@hostel: the first account is replaced | refuse a registration whose derived id is already taken | medium, not executed | Users.RegisterUserOverwritesAccount | Users.RegisterUserChecked |
| backend/src/main/java/com/hostelcomplaintresolver/backend/service/AdminService.java:29-35 | the account is saved without an id, though `User.userId` is an assigned `@Id` with no generator (model/User.java:55-57), so the persistence layer refuses the save | any WARDEN or STAFF request, e.g. name "W", email "w@hostel", role WARDEN: the save of an entity with a null id fails and no account is created | assign a role-based id as registration does, then store the account | medium, not executed | AdminService.CreateUserAsWrittenStoresNothing | AdminService.CreateUser |


=== FILE: admin.dfy ===
/** `AdminService`: the role gate on accounts an administrator may create,
    and the listing of every account that is not a student's. */
module AdminService {
  import opened Wrappers
  import opened Users

  /** Why `createUser` refuses: a role an administrator may not create, an
      account stored without an id, or a refusal of the registration rules
      (email or id already in use). */
  datatype AdminError = RoleNotAllowed | IdNotAssigned | Rejected(reason: UserError)

  /** The fields of `CreateUserRequest` that `createUser` reads. */
  datatype AccountRequest = AccountRequest(name: string, email: string, role: Role)

  /** Only WARDEN and STAFF accounts may be created by an administrator. */
  predicate RoleAllowed(role: Role) {
    role.Warden? || role.Staff?
  }

  /** `createUser` as written: after the role gate the account is saved
      without an id. `User.userId` is an assigned identifier with no
      generator, so the persistence layer refuses an entity whose id is
      null and nothing is stored. */
  function CreateUserAsWritten(users: Table, req: AccountRequest, encodedPassword: string)
      : (r: Result<Table, AdminError>)
    ensures !RoleAllowed(req.role) ==> r == Failure(RoleNotAllowed)
    ensures RoleAllowed(req.role) ==> r == Failure(IdNotAssigned)
  {
    if req.role.Student? || req.role.Admin? then Failure(RoleNotAllowed)
    else Failure(IdNotAssigned)
  }

  /** As written, no request ever adds an account, not even an allowed one. */
  lemma CreateUserAsWrittenStoresNothing(users: Table, encodedPassword: string)
    ensures CreateUserAsWritten(users, AccountRequest("W", "w@hostel", Warden), encodedPassword).Failure?
    ensures forall req :: CreateUserAsWritten(users, req, encodedPassword).Failure?
  {
  }

  /** The registration an account request amounts to: no room, no IRN. */
  function AsRegistration(req: AccountRequest): Registration {
    Registration(req.name, req.email, req.role, None, None)
  }

  /** `createUser` with the id assigned as `registerUser` assigns it: the
      role gate, then the role-based id, refusing an email or id already in
      use, then the new account is added. */
  function CreateUser(users: Table, req: AccountRequest, encodedPassword: string)
      : (r: Result<Table, AdminError>)
    ensures !RoleAllowed(req.role) ==> r == Failure(RoleNotAllowed)
    ensures RoleAllowed(req.role) ==>
      (r.Success? <==> RegisterUserChecked(users, AsRegistration(req), encodedPassword).Success?)
    ensures r.Success? ==>
      && RoleAllowed(req.role)
      && GenerateRoleBasedId(users, req.role).Success?
      && var id := GenerateRoleBasedId(users, req.role).value;
         && id[..3] == IdPrefix(req.role)
         && IndexOfId(users, id).None?
         && r.value == users + [User(id, req.name, req.email, encodedPassword, req.role, None, None, None)]
  {
    if req.role.Student? || req.role.Admin? then Failure(RoleNotAllowed)
    else
      match RegisterUserChecked(users, AsRegistration(req), encodedPassword)
      case Failure(e) => Failure(Rejected(e))
      case Success(t) => Success(t)
  }

  /** `getNonStudentUsers`: the rows of `findAll` whose role is not STUDENT,
      in their original order. */
  function NonStudentUsers(users: Table): (r: Table)
    ensures |r| <= |users|
    ensures forall i :: 0 <= i < |r| ==> r[i].role != Student
  {
    if |users| == 0 then []
    else if users[0].role != Student then [users[0]] + NonStudentUsers(users[1..])
    else NonStudentUsers(users[1..])
  }

  /** Exactly the non-student users are listed: nothing else appears, and
      none of them is dropped. */
  lemma {:induction false} NonStudentUsersMembers(users: Table, u: User)
    ensures u in NonStudentUsers(users) <==> u in users && u.role != Student
  {
    if |users| > 0 {
      NonStudentUsersMembers(users[1..], u);
      assert users == [users[0]] + users[1..];
    }
  }

  /** `sub` is obtained from `s` by deleting some elements. */
  predicate Subsequence(sub: Table, s: Table)
    decreases |s|
  {
    if |sub| == 0 then true
    else if |s| == 0 then false
    else if sub[0] == s[0] then Subsequence(sub[1..], s[1..])
    else Subsequence(sub, s[1..])
  }

  /** The listing keeps the table's order. */
  lemma {:induction false} NonStudentUsersKeepsOrder(users: Table)
    ensures Subsequence(NonStudentUsers(users), users)
  {
    if |users| > 0 {
      NonStudentUsersKeepsOrder(users[1..]);
      if users[0].role != Student {
        assert NonStudentUsers(users)[1..] == NonStudentUsers(users[1..]);
      }
    }
  }

  /** Students and listed accounts together make up the whole table. */
  lemma {:induction false} NonStudentUsersCount(users: Table)
    ensures |NonStudentUsers(users)| + CountRole(users, Student) == |users|
  {
    if |users| > 0 {
      NonStudentUsersCount(users[1..]);
    }
  }

  /** The listing of a table with a first row: that row if it is not a
      student's, then the listing of the rest. */
  lemma NonStudentUsersCons(x: User, rest: Table)
    ensures NonStudentUsers([x] + rest) ==
              (if x.role != Student then [x] else []) + NonStudentUsers(rest)
  {
  }

  /** The listing distributes over concatenation of tables. */
  lemma {:induction false} NonStudentUsersAppend(a: Table, b: Table)
    ensures NonStudentUsers(a + b) == NonStudentUsers(a) + NonStudentUsers(b)
    decreases |a|
  {
    if |a| == 0 {
      assert a + b == b;
    } else {
      var x, rest := a[0], a[1..];
      assert a == [x] + rest;
      assert a + b == [x] + (rest + b);
      NonStudentUsersAppend(rest, b);
      NonStudentUsersCons(x, rest);
      NonStudentUsersCons(x, rest + b);
    }
  }

  /** A non-student account added to the table is listed last. */
  lemma AppendedAccountListed(users: Table, u: User)
    requires u.role != Student
    ensures NonStudentUsers(users + [u]) == NonStudentUsers(users) + [u]
  {
    assert [u][1..] == [];
    assert NonStudentUsers([u]) == [u];
    NonStudentUsersAppend(users, [u]);
  }

  /** An account the administrator creates shows up at the end of the
      non-student listing, and the rest of the listing is unchanged. */
  lemma CreatedAccountListed(users: Table, req: AccountRequest, encodedPassword: string)
    requires CreateUser(users, req, encodedPassword).Success?
    ensures var t := CreateUser(users, req, encodedPassword).value;
            NonStudentUsers(t) == NonStudentUsers(users) + [t[|users|]]
  {
    var t := CreateUser(users, req, encodedPassword).value;
    var u := t[|users|];
    assert t == users + [u];
    AppendedAccountListed(users, u);
  }
}

=== FILE: backend.dfy ===
/** The services wired together as the application runs them: a users table,
    the complaints table, and the audit ledger. Every successful complaint
    operation saves the updated complaint and appends its entry to the
    complaint's chain, keyed by `String.valueOf(id)`; a failed operation
    changes nothing, because every check that throws runs before the save and
    before the log entry. */
module Backend {
  import opened Wrappers
  import opened Storage
  import Decimal
  import Ledger
  import opened Hex
  import opened Users
  import opened ComplaintService

  datatype State = State(users: Table, complaints: Repo<Complaint>, ledger: Ledger.Store)

  /** What the environment supplies to one call: the clock (whole hours), the
      random file-name part, the random transaction id, and the two
      timestamps `logTransaction` reads (transaction and block). */
  datatype Env = Env(now: int, uuid: string, transactionId: string, txTime: string, blockTime: string)

  /** The ledger key of a complaint. */
  function LedgerKey(id: nat): string {
    Decimal.NatToString(id)
  }

  /** Distinct complaints have distinct chains. */
  lemma LedgerKeyInjective(a: nat, b: nat)
    requires a != b
    ensures LedgerKey(a) != LedgerKey(b)
  {
    Decimal.NatToStringInjective(a, b);
  }

  /** `logTransaction` for complaint `id` with the given audit entry. */
  function Log(sha: string -> seq<byte>, ledger: Ledger.Store, id: nat, e: LogEntry, env: Env): (l: Ledger.Store)
    ensures l.Keys == ledger.Keys + {LedgerKey(id)}
  {
    Ledger.LogTransaction(sha, ledger, LedgerKey(id), e.userId, e.action, e.description,
                          env.transactionId, env.txTime, env.blockTime)
  }

  /** `createComplaint`, then save and log. */
  function RaiseComplaint(sha: string -> seq<byte>, s: State, studentId: string, category: Option<string>,
                          description: string, timeSlot: Option<string>, env: Env)
      : (r: Result<(State, nat), ComplaintError>)
    ensures r.Success? <==> FindById(s.users, studentId).Some?
    ensures r.Success? ==>
      var (t, id) := r.value;
      && t.users == s.users
      && id in t.complaints.rows
      && t.complaints.rows[id].status == Raised
      && t.ledger.Keys == s.ledger.Keys + {LedgerKey(id)}
      && |t.ledger[LedgerKey(id)]| == (if LedgerKey(id) in s.ledger then |s.ledger[LedgerKey(id)]| else 0) + 1
    ensures r.Failure? ==> r.error == StudentNotFound
    ensures r.Success? ==>
      var (t, id) := r.value;
      var o := CreateComplaint(s.users, studentId, category, description, timeSlot, env.now).value;
      && id == s.complaints.nextId
      && t.complaints.rows == s.complaints.rows[id := o.complaint]
      && (Valid(s.complaints) ==> id !in s.complaints.rows && Valid(t.complaints))
      && t.ledger == Log(sha, s.ledger, id, o.log, env)
  {
    var o :- CreateComplaint(s.users, studentId, category, description, timeSlot, env.now);
    var (repo, id) := Insert(s.complaints, o.complaint);
    Success((State(s.users, repo, Log(sha, s.ledger, id, o.log, env)), id))
  }

  /** Looks the complaint up (`Complaint not found` otherwise), applies the
      command, saves and logs. */
  function Execute(sha: string -> seq<byte>, s: State, id: nat, cmd: Command, env: Env)
      : (r: Result<State, ComplaintError>)
    ensures id !in s.complaints.rows ==> r == Failure(ComplaintNotFound)
    ensures id in s.complaints.rows ==>
      (r.Success? <==> Step(s.complaints.rows[id], id, s.users, cmd, env.uuid).Success?)
    ensures r.Success? ==>
      var o := Step(s.complaints.rows[id], id, s.users, cmd, env.uuid).value;
      && r.value.users == s.users
      && r.value.complaints == Update(s.complaints, id, o.complaint)
      && r.value.ledger == Log(sha, s.ledger, id, o.log, env)
  {
    if id !in s.complaints.rows then Failure(ComplaintNotFound)
    else
      var o :- Step(s.complaints.rows[id], id, s.users, cmd, env.uuid);
      Success(State(s.users, Update(s.complaints, id, o.complaint), Log(sha, s.ledger, id, o.log, env)))
  }

  /** The hourly priority pass; it writes nothing to the ledger. */
  function AgePriorities(s: State, now: int): (t: State)
    ensures t.users == s.users && t.ledger == s.ledger
    ensures t.complaints.nextId == s.complaints.nextId
    ensures t.complaints.rows.Keys == s.complaints.rows.Keys
    ensures forall k :: k in t.complaints.rows ==> t.complaints.rows[k] == AgePriority(s.complaints.rows[k], now)
  {
    s.(complaints := EscalatePriorities(s.complaints, now))
  }

  /** `verifyBlockchain` for a stored complaint id. */
  method VerifyComplaint(sha: string -> seq<byte>, s: State, id: nat) returns (ok: bool)
    ensures ok <==> LedgerKey(id) in s.ledger && Ledger.ChainValid(sha, s.ledger[LedgerKey(id)])
  {
    ok := Ledger.VerifyBlockchain(sha, s.ledger, LedgerKey(id));
  }

  /** What holds of every state the operations reach from an empty one:
      identity keys are fresh, every complaint is consistent and has a chain,
      and every chain verifies. */
  predicate Invariant(sha: string -> seq<byte>, s: State) {
    && Valid(s.complaints)
    && (forall k :: k in s.complaints.rows ==> Consistent(s.complaints.rows[k]))
    && (forall k :: k in s.complaints.rows ==> LedgerKey(k) in s.ledger)
    && (forall key :: key in s.ledger ==> Ledger.ChainValid(sha, s.ledger[key]))
  }

  lemma InitialInvariant(sha: string -> seq<byte>, users: Table)
    ensures Invariant(sha, State(users, Empty(), map[]))
  {
  }

  /** Logging keeps every chain valid and every existing chain present. */
  lemma LogPreservesChains(sha: string -> seq<byte>, ledger: Ledger.Store, id: nat, e: LogEntry, env: Env)
    requires forall key :: key in ledger ==> Ledger.ChainValid(sha, ledger[key])
    ensures var l := Log(sha, ledger, id, e, env);
            && ledger.Keys + {LedgerKey(id)} == l.Keys
            && forall key :: key in l ==> Ledger.ChainValid(sha, l[key])
  {
    var tx := Ledger.Transaction(env.transactionId, LedgerKey(id), e.userId, e.action, e.description, env.txTime);
    var chain := if LedgerKey(id) in ledger then ledger[LedgerKey(id)] else [];
    Ledger.AppendPreservesValid(sha, chain, tx, env.blockTime);
  }

  lemma RaisePreservesInvariant(sha: string -> seq<byte>, s: State, studentId: string, category: Option<string>,
                                description: string, timeSlot: Option<string>, env: Env)
    requires Invariant(sha, s)
    requires RaiseComplaint(sha, s, studentId, category, description, timeSlot, env).Success?
    ensures Invariant(sha, RaiseComplaint(sha, s, studentId, category, description, timeSlot, env).value.0)
  {
    var o := CreateComplaint(s.users, studentId, category, description, timeSlot, env.now).value;
    CreatedConsistent(s.users, studentId, category, description, timeSlot, env.now);
    var id := s.complaints.nextId;
    LogPreservesChains(sha, s.ledger, id, o.log, env);
  }

  lemma ExecutePreservesInvariant(sha: string -> seq<byte>, s: State, id: nat, cmd: Command, env: Env)
    requires Invariant(sha, s)
    requires Execute(sha, s, id, cmd, env).Success?
    ensures Invariant(sha, Execute(sha, s, id, cmd, env).value)
  {
    var c := s.complaints.rows[id];
    var o := Step(c, id, s.users, cmd, env.uuid).value;
    StepPreservesConsistent(c, id, s.users, cmd, env.uuid);
    LogPreservesChains(sha, s.ledger, id, o.log, env);
  }

  lemma AgePreservesInvariant(sha: string -> seq<byte>, s: State, now: int)
    requires Invariant(sha, s)
    ensures Invariant(sha, AgePriorities(s, now))
  {
    var t := AgePriorities(s, now);
    forall k | k in t.complaints.rows
      ensures Consistent(t.complaints.rows[k])
    {
      assert t.complaints.rows[k] == AgePriority(s.complaints.rows[k], now);
    }
  }

  /** A successful operation touches one complaint and one chain: that chain
      grows by exactly the block recording the operation's audit entry, and
      every other complaint and chain is left as it was. */
  lemma ExecuteTouchesOneComplaint(sha: string -> seq<byte>, s: State, id: nat, cmd: Command, env: Env)
    requires Invariant(sha, s)
    requires Execute(sha, s, id, cmd, env).Success?
    ensures var t := Execute(sha, s, id, cmd, env).value;
            var o := Step(s.complaints.rows[id], id, s.users, cmd, env.uuid).value;
            var before := s.ledger[LedgerKey(id)];
            && (forall k :: k in s.complaints.rows && k != id ==>
                  t.complaints.rows[k] == s.complaints.rows[k]
                  && t.ledger[LedgerKey(k)] == s.ledger[LedgerKey(k)])
            && t.ledger[LedgerKey(id)][..|before|] == before
            && |t.ledger[LedgerKey(id)]| == |before| + 1
            && t.ledger[LedgerKey(id)][|before|].transactions[0].action == o.log.action
            && t.ledger[LedgerKey(id)][|before|].transactions[0].complaintId == LedgerKey(id)
  {
    forall k | k in s.complaints.rows && k != id
      ensures LedgerKey(k) != LedgerKey(id)
    {
      LedgerKeyInjective(k, id);
    }
  }

  /** Once a complaint is CLOSED through feedback, a second feedback
      submission is refused and leaves the whole state untouched. */
  lemma SecondFeedbackRefused(sha: string -> seq<byte>, s: State, id: nat, rating: int,
                              feedback: Option<string>, proof: Option<Upload>, studentId: string,
                              env: Env, env2: Env)
    requires Execute(sha, s, id, FeedbackCmd(rating, feedback, proof, studentId), env).Success?
    ensures var t := Execute(sha, s, id, FeedbackCmd(rating, feedback, proof, studentId), env).value;
            Execute(sha, t, id, FeedbackCmd(rating, feedback, proof, studentId), env2) == Failure(NotResolved)
  {
  }
}

=== FILE: complaints.dfy ===
/** The complaint lifecycle of `ComplaintService`, one complaint at a time.

    A complaint is an immutable record; every service method becomes a pure
    function returning either the error it throws or the updated record,
    together with the entry it hands to the audit log. Status moves only
    among the six values the service code writes. Times are whole hours;
    the random part of stored file names is passed in as `uuid`. */
module ComplaintService {
  import opened Wrappers
  import opened Storage
  import Text
  import Decimal
  import opened Users

  datatype Status = Raised | Assigned | InProgress | Resolved | Escalated | Closed

  /** The text stored in the status column. */
  function StatusName(s: Status): string {
    match s
    case Raised => "RAISED"
    case Assigned => "ASSIGNED"
    case InProgress => "IN_PROGRESS"
    case Resolved => "RESOLVED"
    case Escalated => "ESCALATED"
    case Closed => "CLOSED"
  }

  datatype Priority = Low | Medium | High

  /** Priorities ordered by urgency. */
  function Level(p: Priority): nat {
    match p
    case Low => 0
    case Medium => 1
    case High => 2
  }

  /** `Complaint`; the student and staff references are kept as user ids,
      the only part of them the lifecycle reads. */
  datatype Complaint = Complaint(
    studentId: string,
    staffId: Option<string>,
    roomNumber: Option<string>,
    description: string,
    category: Option<string>,
    timeSlot: Option<string>,
    proofImage: Option<string>,
    status: Status,
    priority: Priority,
    createdAt: int,
    rating: Option<int>,
    feedback: Option<string>)

  /** The user id, action and description handed to `logTransaction`. */
  datatype LogEntry = LogEntry(userId: string, action: string, description: string)

  /** A successful transition: the updated complaint and its audit entry. */
  datatype Outcome = Outcome(complaint: Complaint, log: LogEntry)

  datatype ComplaintError =
    | ComplaintNotFound
    | StudentNotFound
    | StaffNotFound
    | NotStaff
    | NotAssignedStaff
    | NotOwner
    | NotResolved
    | CannotRevert
    | MissingUpload

  /** Java's rendering of a possibly-null string inside a concatenation. */
  function NullableText(s: Option<string>): string {
    match s
    case None => "null"
    case Some(v) => v
  }

  // ---------------------------------------------------------------- priority

  const HighKeywords: seq<string> := ["electr", "plumb"]
  const LowKeywords: seq<string> := ["clean", "furni", "carpen"]

  predicate MentionsAny(text: string, words: seq<string>) {
    exists k :: 0 <= k < |words| && Text.Contains(text, words[k])
  }

  /** `determinePriority`: a missing category is Medium; otherwise the
      lower-cased category decides, the High keywords taking precedence. */
  function DeterminePriority(category: Option<string>): (r: Priority)
    ensures category.None? ==> r == Medium
  {
    if category.None? then Medium
    else
      var cat := Text.ToLower(category.value);
      if Text.Contains(cat, "electr") || Text.Contains(cat, "plumb") then High
      else if Text.Contains(cat, "clean") || Text.Contains(cat, "furni") || Text.Contains(cat, "carpen") then Low
      else Medium
  }

  /** Priority by occurrence of a keyword anywhere in the lower-cased
      category: High for an electrical or plumbing word, else Low for a
      cleaning, furniture or carpentry word, else Medium. */
  lemma DeterminePriorityByKeywords(category: string)
    ensures var cat := Text.ToLower(category);
            && (DeterminePriority(Some(category)) == High <==> MentionsAny(cat, HighKeywords))
            && (DeterminePriority(Some(category)) == Low <==>
                  !MentionsAny(cat, HighKeywords) && MentionsAny(cat, LowKeywords))
  {
    var cat := Text.ToLower(category);
    if Text.Contains(cat, "electr") { assert Text.Contains(cat, HighKeywords[0]); }
    if Text.Contains(cat, "plumb") { assert Text.Contains(cat, HighKeywords[1]); }
    if Text.Contains(cat, "clean") { assert Text.Contains(cat, LowKeywords[0]); }
    if Text.Contains(cat, "furni") { assert Text.Contains(cat, LowKeywords[1]); }
    if Text.Contains(cat, "carpen") { assert Text.Contains(cat, LowKeywords[2]); }
  }

  /** Letter case in the category never matters. */
  lemma DeterminePriorityIgnoresCase(category: string)
    ensures DeterminePriority(Some(category)) == DeterminePriority(Some(Text.ToLower(category)))
  {
    Text.ToLowerIdempotent(category);
  }

  lemma {:induction false} ToLowerConcat(a: string, b: string)
    ensures Text.ToLower(a + b) == Text.ToLower(a) + Text.ToLower(b)
  {
    var l := Text.ToLower(a + b);
    var r := Text.ToLower(a) + Text.ToLower(b);
    assert forall i :: 0 <= i < |l| ==> l[i] == r[i];
  }

  /** A High category stays High whatever text surrounds it. */
  lemma HighCategoryDominates(pre: string, category: string, post: string)
    requires DeterminePriority(Some(category)) == High
    ensures DeterminePriority(Some(pre + category + post)) == High
  {
    var cat := Text.ToLower(category);
    ToLowerConcat(pre, category);
    ToLowerConcat(pre + category, post);
    assert Text.ToLower(pre + category + post) == Text.ToLower(pre) + cat + Text.ToLower(post);
    if Text.Contains(cat, "electr") {
      Text.ContainsExtend(Text.ToLower(pre), cat, Text.ToLower(post), "electr");
    } else {
      Text.ContainsExtend(Text.ToLower(pre), cat, Text.ToLower(post), "plumb");
    }
  }

  // ---------------------------------------------------------------- creation

  /** `createComplaint`: the student must exist; the complaint starts RAISED,
      unassigned, with the student's room and a priority from its category. */
  function CreateComplaint(users: Table, studentId: string, category: Option<string>,
                           description: string, timeSlot: Option<string>, now: int)
      : (r: Result<Outcome, ComplaintError>)
    ensures r.Success? <==> FindById(users, studentId).Some?
    ensures r.Failure? ==> r.error == StudentNotFound
    ensures r.Success? ==>
      var c := r.value.complaint;
      var student := FindById(users, studentId).value;
      && c.status == Raised
      && c.staffId.None?
      && c.studentId == studentId
      && c.roomNumber == student.roomNumber
      && c.priority == DeterminePriority(category)
      && c.rating.None? && c.proofImage.None?
      && c.createdAt == now
      && c.description == description && c.category == category && c.timeSlot == timeSlot
      && c.feedback.None?
      && r.value.log.action == StatusName(Raised)
      && r.value.log.userId == studentId
      && r.value.log.description ==
           "Complaint raised by " + student.name + " for room " + NullableText(student.roomNumber)
  {
    match FindById(users, studentId)
    case None => Failure(StudentNotFound)
    case Some(student) =>
      var c := Complaint(student.userId, None, student.roomNumber, description, category, timeSlot,
                         None, Raised, DeterminePriority(category), now, None, None);
      Success(Outcome(c, LogEntry(student.userId, "RAISED",
        "Complaint raised by " + student.name + " for room " + NullableText(student.roomNumber))))
  }

  // ------------------------------------------------------------- transitions

  /** `reopenComplaint`: only a RESOLVED complaint, which becomes ESCALATED;
      nothing else about it changes. */
  function Reopen(c: Complaint, reason: string): (r: Result<Outcome, ComplaintError>)
    ensures r.Success? <==> c.status == Resolved
    ensures r.Failure? ==> r.error == NotResolved
    ensures r.Success? ==> r.value.complaint == c.(status := Escalated)
    ensures r.Success? ==> r.value.log == LogEntry("Student", "ESCALATED", "Reason: " + reason)
  {
    if c.status == Resolved then
      Success(Outcome(c.(status := Escalated), LogEntry("Student", "ESCALATED", "Reason: " + reason)))
    else Failure(NotResolved)
  }

  /** `revertComplaint`: ESCALATED or RESOLVED go back to IN_PROGRESS; every
      other status is refused. */
  function Revert(c: Complaint): (r: Result<Outcome, ComplaintError>)
    ensures r.Success? <==> c.status == Escalated || c.status == Resolved
    ensures r.Failure? ==> r.error == CannotRevert
    ensures r.Success? ==> r.value.complaint == c.(status := InProgress)
    ensures r.Success? ==> r.value.log == LogEntry("Warden", "REVERTED", "Status reverted to In Progress")
  {
    if c.status == Escalated || c.status == Resolved then
      Success(Outcome(c.(status := InProgress),
                      LogEntry("Warden", "REVERTED", "Status reverted to In Progress")))
    else Failure(CannotRevert)
  }

  /** `assignComplaint`: the target must be an existing STAFF user; the prior
      status is not consulted. */
  function Assign(c: Complaint, users: Table, staffId: string): (r: Result<Outcome, ComplaintError>)
    ensures FindById(users, staffId).None? ==> r == Failure(StaffNotFound)
    ensures FindById(users, staffId).Some? ==>
      (r.Success? <==> FindById(users, staffId).value.role == Staff)
    ensures FindById(users, staffId).Some? && FindById(users, staffId).value.role != Staff ==>
              r == Failure(NotStaff)
    ensures r.Success? ==> r.value.complaint == c.(staffId := Some(staffId), status := Assigned)
    ensures r.Success? ==>
      r.value.log == LogEntry("SYSTEM", "ASSIGNED",
                              "Complaint assigned to staff " + FindById(users, staffId).value.name)
  {
    match FindById(users, staffId)
    case None => Failure(StaffNotFound)
    case Some(staff) =>
      if staff.role != Staff then Failure(NotStaff)
      else Success(Outcome(c.(staffId := Some(staff.userId), status := Assigned),
                           LogEntry("SYSTEM", "ASSIGNED", "Complaint assigned to staff " + staff.name)))
  }

  /** `resolveComplaint`: the caller must exist and be the complaint's
      assigned staff member; the prior status is not consulted. */
  function Resolve(c: Complaint, users: Table, staffId: string): (r: Result<Outcome, ComplaintError>)
    ensures FindById(users, staffId).None? ==> r == Failure(StaffNotFound)
    ensures FindById(users, staffId).Some? ==> (r.Success? <==> c.staffId == Some(staffId))
    ensures FindById(users, staffId).Some? && c.staffId != Some(staffId) ==>
              r == Failure(NotAssignedStaff)
    ensures r.Success? ==> r.value.complaint == c.(status := Resolved)
    ensures r.Success? ==>
      r.value.log == LogEntry(staffId, "RESOLVED",
                              "Complaint resolved by staff " + FindById(users, staffId).value.name)
  {
    match FindById(users, staffId)
    case None => Failure(StaffNotFound)
    case Some(staff) =>
      if c.staffId.None? || c.staffId.value != staff.userId then Failure(NotAssignedStaff)
      else Success(Outcome(c.(status := Resolved),
                           LogEntry(staff.userId, "RESOLVED", "Complaint resolved by staff " + staff.name)))
  }

  /** Where proof images are served from. */
  const ProofPath: string := "/uploads/proofs/"

  function ProofFileName(kind: string, id: nat, uuid: string): string {
    kind + "_" + Decimal.NatToString(id) + "_" + uuid + ".jpg"
  }

  /** `submitFeedbackWithProof`: only the complaint's own student, only on a
      RESOLVED complaint, and a proof file must be supplied; the rating,
      feedback and proof path are recorded and the complaint is CLOSED. */
  function SubmitFeedback(c: Complaint, id: nat, rating: int, feedback: Option<string>,
                          proof: Option<Upload>, studentId: string, uuid: string)
      : (r: Result<Outcome, ComplaintError>)
    ensures r.Success? <==> c.studentId == studentId && c.status == Resolved && proof.Some?
    ensures c.studentId != studentId ==> r == Failure(NotOwner)
    ensures c.studentId == studentId && c.status != Resolved ==> r == Failure(NotResolved)
    ensures c.studentId == studentId && c.status == Resolved && proof.None? ==>
              r == Failure(MissingUpload)
    ensures r.Success? ==>
      r.value.log == LogEntry(studentId, "CLOSED",
                              "Feedback submitted with proof. Rating: " + Decimal.IntToString(rating))
    ensures r.Success? ==>
      && r.value.complaint.status == Closed
      && r.value.complaint.rating == Some(rating)
      && r.value.complaint.feedback == feedback
      && r.value.complaint.proofImage == Some(ProofPath + ProofFileName("proof", id, uuid))
      && r.value.complaint.(status := c.status, rating := c.rating, feedback := c.feedback,
                            proofImage := c.proofImage) == c
  {
    if c.studentId != studentId then Failure(NotOwner)
    else if c.status != Resolved then Failure(NotResolved)
    else if proof.None? then Failure(MissingUpload)
    else
      var closed := c.(rating := Some(rating), feedback := feedback,
                       proofImage := Some(ProofPath + ProofFileName("proof", id, uuid)), status := Closed);
      Success(Outcome(closed, LogEntry(studentId, "CLOSED",
        "Feedback submitted with proof. Rating: " + Decimal.IntToString(rating))))
  }

  /** The description column's capacity. */
  const MaxDescription: nat := 1000

  const EscalationMarker: string := "\n\n[ESCALATED]: "

  /** The description after an escalation: the reason is appended after a
      marker, and the result is cut to the column's capacity. */
  function EscalatedDescription(description: string, reason: string): (d: string)
    ensures |d| <= MaxDescription
    ensures Text.IsPrefix(d, description + EscalationMarker + reason)
    ensures |description + EscalationMarker + reason| <= MaxDescription ==>
              d == description + EscalationMarker + reason
    ensures |description + EscalationMarker + reason| > MaxDescription ==> |d| == MaxDescription
  {
    Text.Truncate(description + EscalationMarker + reason, MaxDescription)
  }

  /** Escalation never loses an original description that fit the column. */
  lemma EscalationKeepsDescription(description: string, reason: string)
    requires |description| <= MaxDescription
    ensures Text.IsPrefix(description, EscalatedDescription(description, reason))
  {
    var full := description + EscalationMarker + reason;
    var d := EscalatedDescription(description, reason);
    assert d[..|description|] == full[..|description|];
  }

  /** `reopenComplaintWithProof`: only from RESOLVED, and a proof file must be
      supplied; the complaint becomes ESCALATED with the new proof path and
      the reason appended to its description. */
  function ReopenWithProof(c: Complaint, id: nat, reason: string, proof: Option<Upload>, uuid: string)
      : (r: Result<Outcome, ComplaintError>)
    ensures r.Success? <==> c.status == Resolved && proof.Some?
    ensures c.status != Resolved ==> r == Failure(NotResolved)
    ensures c.status == Resolved && proof.None? ==> r == Failure(MissingUpload)
    ensures r.Success? ==> r.value.log == LogEntry("Student", "ESCALATED", "Escalated with proof: " + reason)
    ensures r.Success? ==>
      && r.value.complaint.status == Escalated
      && r.value.complaint.proofImage == Some(ProofPath + ProofFileName("escalation", id, uuid))
      && r.value.complaint.description == EscalatedDescription(c.description, reason)
      && r.value.complaint.(status := c.status, proofImage := c.proofImage,
                            description := c.description) == c
  {
    if c.status != Resolved then Failure(NotResolved)
    else if proof.None? then Failure(MissingUpload)
    else
      var escalated := c.(status := Escalated,
                          proofImage := Some(ProofPath + ProofFileName("escalation", id, uuid)),
                          description := EscalatedDescription(c.description, reason));
      Success(Outcome(escalated, LogEntry("Student", "ESCALATED", "Escalated with proof: " + reason)))
  }

  /** A request to change one stored complaint. */
  datatype Command =
    | ReopenCmd(reason: string)
    | RevertCmd
    | AssignCmd(staffId: string)
    | ResolveCmd(staffId: string)
    | FeedbackCmd(rating: int, feedback: Option<string>, proof: Option<Upload>, studentId: string)
    | ReopenWithProofCmd(reason: string, proof: Option<Upload>)

  /** Applies a command to the complaint stored under `id`. */
  function Step(c: Complaint, id: nat, users: Table, cmd: Command, uuid: string): Result<Outcome, ComplaintError> {
    match cmd
    case ReopenCmd(reason) => Reopen(c, reason)
    case RevertCmd => Revert(c)
    case AssignCmd(staffId) => Assign(c, users, staffId)
    case ResolveCmd(staffId) => Resolve(c, users, staffId)
    case FeedbackCmd(rating, feedback, proof, studentId) =>
      SubmitFeedback(c, id, rating, feedback, proof, studentId, uuid)
    case ReopenWithProofCmd(reason, proof) => ReopenWithProof(c, id, reason, proof, uuid)
  }

  // ------------------------------------------------------- lifecycle graph

  /** The moves the service code permits: anything may be (re)assigned;
      anything but a RAISED complaint may be resolved; from RESOLVED a
      complaint may be closed, escalated or sent back to work; from ESCALATED
      it may be sent back to work. */
  predicate Edge(from: Status, to: Status) {
    || to == Assigned
    || (to == Resolved && from != Raised)
    || (from == Resolved && to in {Closed, Escalated, InProgress})
    || (from == Escalated && to == InProgress)
  }

  /** Every successful step on a consistent complaint follows an edge of
      the graph, and the audit
      entry names the status it reached (a revert is logged as REVERTED). */
  lemma StepFollowsEdge(c: Complaint, id: nat, users: Table, cmd: Command, uuid: string)
    requires Consistent(c)
    requires Step(c, id, users, cmd, uuid).Success?
    ensures var o := Step(c, id, users, cmd, uuid).value;
            && Edge(c.status, o.complaint.status)
            && (o.log.action == StatusName(o.complaint.status) || (cmd.RevertCmd? && o.log.action == "REVERTED"))
  {
  }

  /** Every edge of the graph is taken by some step, from any consistent
      complaint in its source status. */
  lemma EdgeTaken(c: Complaint, to: Status)
    requires Consistent(c)
    requires Edge(c.status, to)
    ensures exists users: Table, cmd: Command ::
              Step(c, 0, users, cmd, "u").Success? && Step(c, 0, users, cmd, "u").value.complaint.status == to
  {
    var staff := User("STF001", "S", "s@hostel", "", Staff, None, None, None);
    var users := [staff];
    assert FindById(users, "STF001") == Some(staff);
    if to == Assigned {
      assert Step(c, 0, users, AssignCmd("STF001"), "u").value.complaint.status == to;
    } else if to == Resolved {
      var sid := c.staffId.value;
      var owner := User(sid, "T", "t@hostel", "", Staff, None, None, None);
      assert FindById([owner], sid) == Some(owner);
      assert Step(c, 0, [owner], ResolveCmd(sid), "u").value.complaint.status == to;
    } else if to == Closed {
      assert Step(c, 0, users, FeedbackCmd(5, None, Some(Upload(1)), c.studentId), "u").value.complaint.status == to;
    } else if to == Escalated {
      assert Step(c, 0, users, ReopenCmd(""), "u").value.complaint.status == to;
    } else {
      assert Step(c, 0, users, RevertCmd, "u").value.complaint.status == to;
    }
  }

  /** The record invariant every step keeps: a complaint has a staff member
      exactly when it has left RAISED, and a CLOSED complaint carries its
      rating and proof. */
  predicate Consistent(c: Complaint) {
    && (c.staffId.None? <==> c.status == Raised)
    && (c.status == Closed ==> c.rating.Some? && c.proofImage.Some?)
  }

  lemma CreatedConsistent(users: Table, studentId: string, category: Option<string>,
                          description: string, timeSlot: Option<string>, now: int)
    requires CreateComplaint(users, studentId, category, description, timeSlot, now).Success?
    ensures Consistent(CreateComplaint(users, studentId, category, description, timeSlot, now).value.complaint)
  {
  }

  lemma StepPreservesConsistent(c: Complaint, id: nat, users: Table, cmd: Command, uuid: string)
    requires Consistent(c)
    requires Step(c, id, users, cmd, uuid).Success?
    ensures Consistent(Step(c, id, users, cmd, uuid).value.complaint)
  {
  }

  /** Feedback is taken once: on the CLOSED complaint it produced, a second
      submission is refused as not RESOLVED. */
  lemma FeedbackOnlyOnce(c: Complaint, id: nat, rating: int, feedback: Option<string>,
                         proof: Option<Upload>, studentId: string, uuid: string,
                         rating2: int, feedback2: Option<string>, proof2: Option<Upload>, uuid2: string)
    requires SubmitFeedback(c, id, rating, feedback, proof, studentId, uuid).Success?
    ensures var closed := SubmitFeedback(c, id, rating, feedback, proof, studentId, uuid).value.complaint;
            SubmitFeedback(closed, id, rating2, feedback2, proof2, studentId, uuid2) == Failure(NotResolved)
  {
  }

  /** Neither kind of reopening applies twice: the ESCALATED complaint it
      produced is refused. */
  lemma ReopenOnlyOnce(c: Complaint, id: nat, reason: string, proof: Option<Upload>, uuid: string,
                       reason2: string, proof2: Option<Upload>, uuid2: string)
    requires Reopen(c, reason).Success?
    ensures var e := Reopen(c, reason).value.complaint;
            && Reopen(e, reason2) == Failure(NotResolved)
            && ReopenWithProof(e, id, reason2, proof2, uuid2) == Failure(NotResolved)
  {
  }

  /** CLOSED is not terminal in the service code: an assignment still applies
      to a closed complaint and moves it back to ASSIGNED. */
  lemma ClosedCanBeReassigned(c: Complaint, users: Table, staffId: string)
    requires c.status == Closed
    requires FindById(users, staffId).Some? && FindById(users, staffId).value.role == Staff
    ensures Assign(c, users, staffId).Success?
    ensures Assign(c, users, staffId).value.complaint.status == Assigned
    ensures Assign(c, users, staffId).value.complaint.rating == c.rating
  {
  }

  // ------------------------------------------------------- priority ageing

  /** Java's `long` division, which truncates toward zero. */
  function TruncDiv(a: int, b: int): (q: int)
    requires b > 0
    ensures a >= 0 ==> q == a / b
    ensures a < 0 ==> q <= 0 && -b < a - q * b <= 0
  {
    if a >= 0 then a / b else -((-a) / b)
  }

  /** Whole days between creation and `now`, counted as
      `ChronoUnit.HOURS.between(createdAt, now) / 24`. */
  function DaysPassed(c: Complaint, now: int): int {
    TruncDiv(now - c.createdAt, 24)
  }

  /** One complaint's share of `escalateComplaintPriorities`: RESOLVED and
      CLOSED complaints are skipped; Medium rises to High after a day, then
      Low rises to Medium after three days. */
  function AgePriority(c: Complaint, now: int): (r: Complaint)
    ensures r.(priority := c.priority) == c
    ensures c.status == Resolved || c.status == Closed ==> r == c
    ensures Level(c.priority) <= Level(r.priority) <= Level(c.priority) + 1
    ensures r.priority != c.priority <==>
              && c.status != Resolved && c.status != Closed
              && ((c.priority == Medium && now - c.createdAt >= 24)
                  || (c.priority == Low && now - c.createdAt >= 72))
  {
    if c.status == Resolved || c.status == Closed then c
    else
      var days := DaysPassed(c, now);
      var p1 := if c.priority == Medium && days >= 1 then High else c.priority;
      var p2 := if p1 == Low && days >= 3 then Medium else p1;
      c.(priority := p2)
  }

  /** Because the Medium rule runs first, an old Low complaint needs two
      passes to reach High. */
  lemma LowNeedsTwoPasses(c: Complaint, now: int, later: int)
    requires c.status != Resolved && c.status != Closed
    requires c.priority == Low && now - c.createdAt >= 72 && later >= now
    ensures AgePriority(c, now).priority == Medium
    ensures AgePriority(AgePriority(c, now), later).priority == High
  {
  }

  /** `escalateComplaintPriorities`: ages every stored complaint. */
  function EscalatePriorities(repo: Repo<Complaint>, now: int): (r: Repo<Complaint>)
    ensures r.nextId == repo.nextId
    ensures r.rows.Keys == repo.rows.Keys
    ensures forall k :: k in r.rows ==>
              && r.rows[k].(priority := repo.rows[k].priority) == repo.rows[k]
              && Level(repo.rows[k].priority) <= Level(r.rows[k].priority)
    ensures forall k :: k in r.rows ==> r.rows[k] == AgePriority(repo.rows[k], now)
  {
    Repo(map k | k in repo.rows :: AgePriority(repo.rows[k], now), repo.nextId)
  }
}

=== FILE: decimal.dfy ===
/** Decimal rendering of integers: `String.valueOf` on a `long` or `int`,
    and `String.format("%03d", n)` as used for generated user ids. */
module Decimal {

  predicate IsDigit(c: char) {
    '0' <= c <= '9'
  }

  predicate AllDigits(s: string) {
    forall i :: 0 <= i < |s| ==> IsDigit(s[i])
  }

  function DigitChar(d: nat): (c: char)
    requires d < 10
    ensures IsDigit(c)
  {
    ('0' as int + d) as char
  }

  function DigitValue(c: char): (d: nat)
    requires IsDigit(c)
    ensures d < 10
  {
    c as int - '0' as int
  }

  /** `String.valueOf(n)` for a non-negative `n`: shortest decimal form. */
  function NatToString(n: nat): (r: string)
    ensures |r| >= 1
    ensures AllDigits(r)
    ensures |r| > 1 ==> r[0] != '0'
    decreases n
  {
    if n < 10 then [DigitChar(n)] else NatToString(n / 10) + [DigitChar(n % 10)]
  }

  /** The value denoted by a string of decimal digits (most significant first). */
  function ParseDigits(s: string): nat
    requires AllDigits(s)
  {
    if |s| == 0 then 0 else 10 * ParseDigits(s[..|s| - 1]) + DigitValue(s[|s| - 1])
  }

  /** Reading back a rendered number gives the number. */
  lemma {:induction false} ParseNatToString(n: nat)
    ensures ParseDigits(NatToString(n)) == n
    decreases n
  {
    if n >= 10 {
      var r := NatToString(n);
      assert r[..|r| - 1] == NatToString(n / 10);
      ParseNatToString(n / 10);
    }
  }

  /** Distinct numbers render to distinct strings. */
  lemma NatToStringInjective(a: nat, b: nat)
    ensures NatToString(a) == NatToString(b) ==> a == b
  {
    ParseNatToString(a);
    ParseNatToString(b);
  }

  /** `String.valueOf(i)` for any `int`: a minus sign before the magnitude. */
  function IntToString(i: int): (r: string)
    ensures |r| >= 1
    ensures i < 0 <==> r[0] == '-'
    ensures i >= 0 ==> AllDigits(r)
  {
    if i < 0 then "-" + NatToString(-i) else NatToString(i)
  }

  function Zeros(k: nat): (r: string)
    ensures |r| == k
    ensures forall i :: 0 <= i < k ==> r[i] == '0'
  {
    if k == 0 then [] else Zeros(k - 1) + ['0']
  }

  lemma {:induction false} ParseZeros(z: string)
    requires forall i :: 0 <= i < |z| ==> z[i] == '0'
    ensures AllDigits(z) && ParseDigits(z) == 0
    decreases |z|
  {
    if |z| > 0 {
      ParseZeros(z[..|z| - 1]);
    }
  }

  /** Leading zeros do not change the value. */
  lemma {:induction false} ParseLeadingZeros(z: string, d: string)
    requires forall i :: 0 <= i < |z| ==> z[i] == '0'
    requires AllDigits(d)
    ensures AllDigits(z + d) && ParseDigits(z + d) == ParseDigits(d)
    decreases |d|
  {
    if |d| == 0 {
      assert z + d == z;
      ParseZeros(z);
    } else {
      var w := z + d;
      assert w[..|w| - 1] == z + d[..|d| - 1];
      ParseLeadingZeros(z, d[..|d| - 1]);
    }
  }

  function Max(a: int, b: int): int {
    if a >= b then a else b
  }

  /** `String.format("%03d", n)`: zero-padded to at least three digits,
      never truncated, and denoting `n`. */
  function Pad3(n: nat): (r: string)
    ensures |r| == Max(3, |NatToString(n)|)
    ensures |NatToString(n)| >= 3 ==> r == NatToString(n)
    ensures AllDigits(r)
    ensures ParseDigits(r) == n
  {
    var d := NatToString(n);
    ParseNatToString(n);
    if |d| >= 3 then d
    else
      ParseLeadingZeros(Zeros(3 - |d|), d);
      Zeros(3 - |d|) + d
  }
}

=== FILE: hex.dfy ===
/** Lower-case hexadecimal rendering of a digest, one `String.format("%02x", b)`
    per byte (a negative Java byte is formatted as its unsigned value). */
module Hex {

  /** A digest byte, viewed unsigned. */
  newtype byte = x: int | 0 <= x < 256

  predicate IsLowerHex(c: char) {
    '0' <= c <= '9' || 'a' <= c <= 'f'
  }

  function HexChar(d: nat): (c: char)
    requires d < 16
    ensures IsLowerHex(c)
  {
    if d < 10 then ('0' as int + d) as char else ('a' as int + d - 10) as char
  }

  function HexValue(c: char): (d: nat)
    requires IsLowerHex(c)
    ensures d < 16
  {
    if c <= '9' then c as int - '0' as int else c as int - 'a' as int + 10
  }

  lemma HexValueOfChar(d: nat)
    requires d < 16
    ensures HexValue(HexChar(d)) == d
  {
  }

  /** Exactly two lower-case hex digits per byte, high nibble first. */
  function ByteToHex(b: byte): (r: string)
    ensures |r| == 2
    ensures IsLowerHex(r[0]) && IsLowerHex(r[1])
  {
    [HexChar(b as int / 16), HexChar(b as int % 16)]
  }

  function ToHex(bs: seq<byte>): (r: string)
    ensures |r| == 2 * |bs|
    ensures forall i :: 0 <= i < |r| ==> IsLowerHex(r[i])
  {
    if |bs| == 0 then [] else ByteToHex(bs[0]) + ToHex(bs[1..])
  }

  /** Reads back a string of lower-case hex digit pairs. */
  function FromHex(s: string): seq<byte>
    requires |s| % 2 == 0
    requires forall i :: 0 <= i < |s| ==> IsLowerHex(s[i])
  {
    if |s| == 0 then []
    else [(16 * HexValue(s[0]) + HexValue(s[1])) as byte] + FromHex(s[2..])
  }

  /** The rendering loses nothing: the digest can be read back. */
  lemma {:induction false} FromHexToHex(bs: seq<byte>)
    ensures FromHex(ToHex(bs)) == bs
  {
    if |bs| > 0 {
      var s := ToHex(bs);
      assert s[2..] == ToHex(bs[1..]);
      HexValueOfChar(bs[0] as int / 16);
      HexValueOfChar(bs[0] as int % 16);
      FromHexToHex(bs[1..]);
    }
  }

  /** Distinct digests render to distinct strings. */
  lemma ToHexInjective(a: seq<byte>, b: seq<byte>)
    ensures ToHex(a) == ToHex(b) ==> a == b
  {
    FromHexToHex(a);
    FromHexToHex(b);
  }
}

=== FILE: ledger.dfy ===
/** The per-complaint audit chain: `Block` with its SHA-256 `calculateHash`,
    and the `BlockchainService` operations that append a transaction to a
    complaint's chain and verify that chain.

    SHA-256 over the UTF-8 bytes of a string is foreign code; it enters every
    operation as the parameter `sha`, so each lemma holds for any digest
    function. A ledger file per complaint becomes a map entry keyed by the
    complaint id string; a missing file is a missing key. */
module Ledger {
  import Decimal
  import opened Hex

  /** One logged action: `Transaction` with all six fields. */
  datatype Transaction = Transaction(
    transactionId: string,
    complaintId: string,
    userId: string,
    action: string,
    description: string,
    timestamp: string)

  /** `Block`; `timestamp` is the ISO text `LocalDateTime.toString()` yields. */
  datatype Block = Block(
    index: int,
    timestamp: string,
    transactions: seq<Transaction>,
    previousHash: string,
    hash: string)

  type Chain = seq<Block>

  /** Complaint id string to that complaint's chain. */
  type Store = map<string, Chain>

  /** The previous hash the first block of a chain carries. */
  const Genesis: string := "0"

  /** What one transaction contributes to the hashed text. */
  function TransactionData(t: Transaction): string {
    t.transactionId + t.action + t.description
  }

  function JoinData(ts: seq<Transaction>): string {
    if |ts| == 0 then "" else TransactionData(ts[0]) + JoinData(ts[1..])
  }

  /** The text `calculateHash` digests: index, previous hash, the transactions'
      id, action and description, then the block timestamp. */
  function HashInput(b: Block): string {
    Decimal.IntToString(b.index) + b.previousHash + JoinData(b.transactions) + b.timestamp
  }

  /** `calculateHash`: the digest of `HashInput`, rendered as lower-case hex. */
  function CalculateHash(sha: string -> seq<byte>, b: Block): (h: string)
    ensures |h| == 2 * |sha(HashInput(b))|
    ensures forall i :: 0 <= i < |h| ==> IsLowerHex(h[i])
    ensures FromHex(h) == sha(HashInput(b))
  {
    FromHexToHex(sha(HashInput(b)));
    ToHex(sha(HashInput(b)))
  }

  /** Two blocks that agree on what is hashed have the same hash: the stored
      hash, each transaction's complaint id, user id and timestamp do not
      take part. */
  predicate SameHashedFields(a: Block, b: Block) {
    && a.index == b.index
    && a.previousHash == b.previousHash
    && a.timestamp == b.timestamp
    && |a.transactions| == |b.transactions|
    && forall k :: 0 <= k < |a.transactions| ==>
         TransactionData(a.transactions[k]) == TransactionData(b.transactions[k])
  }

  lemma {:induction false} JoinDataSame(xs: seq<Transaction>, ys: seq<Transaction>)
    requires |xs| == |ys|
    requires forall k :: 0 <= k < |xs| ==> TransactionData(xs[k]) == TransactionData(ys[k])
    ensures JoinData(xs) == JoinData(ys)
  {
    if |xs| > 0 {
      JoinDataSame(xs[1..], ys[1..]);
    }
  }

  /** `calculateHash` is a function of the hashed fields alone. */
  lemma HashCoversOnlyHashedFields(sha: string -> seq<byte>, a: Block, b: Block)
    requires SameHashedFields(a, b)
    ensures CalculateHash(sha, a) == CalculateHash(sha, b)
  {
    JoinDataSame(a.transactions, b.transactions);
  }

  /** The `Block(index, previousHash, transaction)` constructor: one
      transaction, and a hash computed from the block's own fields. */
  function NewBlock(sha: string -> seq<byte>, index: int, previousHash: string,
                    tx: Transaction, now: string): (b: Block)
    ensures b.transactions == [tx]
    ensures b.index == index && b.previousHash == previousHash && b.timestamp == now
    ensures b.hash == CalculateHash(sha, b)
  {
    var b := Block(index, now, [tx], previousHash, "");
    assert SameHashedFields(b, b.(hash := CalculateHash(sha, b)));
    HashCoversOnlyHashedFields(sha, b, b.(hash := CalculateHash(sha, b)));
    b.(hash := CalculateHash(sha, b))
  }

  /** The previous hash a new block takes: "0" on an empty chain, else the
      last block's hash. */
  function LastHash(chain: Chain): string {
    if |chain| == 0 then Genesis else chain[|chain| - 1].hash
  }

  /** Appending one transaction to a chain, as `logTransaction` does. */
  function Append(sha: string -> seq<byte>, chain: Chain, tx: Transaction, now: string): (r: Chain)
    ensures |r| == |chain| + 1
    ensures r[..|chain|] == chain
    ensures r[|chain|].index == |chain| + 1
    ensures r[|chain|].timestamp == now
    ensures |chain| == 0 ==> r[0].previousHash == Genesis
    ensures |chain| > 0 ==> r[|chain|].previousHash == chain[|chain| - 1].hash
    ensures r[|chain|].transactions == [tx]
    ensures r[|chain|].hash == CalculateHash(sha, r[|chain|])
  {
    chain + [NewBlock(sha, |chain| + 1, LastHash(chain), tx, now)]
  }

  /** `logTransaction`: builds the transaction from its arguments and appends
      it to the complaint's chain, creating the chain when there is none. */
  function LogTransaction(sha: string -> seq<byte>, ledger: Store,
                          complaintId: string, userId: string, action: string, description: string,
                          transactionId: string, txTime: string, blockTime: string): (r: Store)
    ensures r.Keys == ledger.Keys + {complaintId}
    ensures forall k :: k in ledger && k != complaintId ==> r[k] == ledger[k]
    ensures var prior := if complaintId in ledger then ledger[complaintId] else [];
            && |r[complaintId]| == |prior| + 1
            && r[complaintId][..|prior|] == prior
            && r[complaintId][|prior|].transactions ==
                 [Transaction(transactionId, complaintId, userId, action, description, txTime)]
            && r[complaintId] ==
                 Append(sha, prior, Transaction(transactionId, complaintId, userId, action, description, txTime), blockTime)
  {
    var tx := Transaction(transactionId, complaintId, userId, action, description, txTime);
    var chain := if complaintId in ledger then ledger[complaintId] else [];
    ledger[complaintId := Append(sha, chain, tx, blockTime)]
  }

  /** Block `i` (for `i >= 1`) passes both checks `verifyBlockchain` makes. */
  predicate BlockOk(sha: string -> seq<byte>, chain: Chain, i: int)
    requires 1 <= i < |chain|
  {
    chain[i].hash == CalculateHash(sha, chain[i]) && chain[i].previousHash == chain[i - 1].hash
  }

  /** The condition `verifyBlockchain` accepts, stated over the whole chain. */
  predicate ChainValid(sha: string -> seq<byte>, chain: Chain) {
    forall i :: 1 <= i < |chain| ==> BlockOk(sha, chain, i)
  }

  /** `verifyBlockchain`: false when the complaint has no chain; otherwise
      walks blocks 1 .. n-1 and stops at the first mismatch. */
  method VerifyBlockchain(sha: string -> seq<byte>, ledger: Store, complaintId: string)
      returns (ok: bool)
    ensures ok <==> complaintId in ledger && ChainValid(sha, ledger[complaintId])
  {
    if complaintId !in ledger {
      return false;
    }
    var chain := ledger[complaintId];
    var i := 1;
    while i < |chain|
      invariant 1 <= i <= |chain| || |chain| == 0
      invariant forall j :: 1 <= j < i && j < |chain| ==> BlockOk(sha, chain, j)
    {
      var prev := chain[i - 1];
      var curr := chain[i];
      if curr.hash != CalculateHash(sha, curr) {
        assert !BlockOk(sha, chain, i);
        return false;
      }
      if curr.previousHash != prev.hash {
        assert !BlockOk(sha, chain, i);
        return false;
      }
      i := i + 1;
    }
    return true;
  }

  /** A chain of zero or one blocks always verifies. */
  lemma ShortChainValid(sha: string -> seq<byte>, chain: Chain)
    requires |chain| <= 1
    ensures ChainValid(sha, chain)
  {
  }

  /** Appending leaves every earlier block where it was. */
  lemma AppendKeeps(sha: string -> seq<byte>, chain: Chain, tx: Transaction, now: string, i: nat)
    requires i < |chain|
    ensures Append(sha, chain, tx, now)[i] == chain[i]
  {
  }

  /** Appending keeps a valid chain valid. */
  lemma {:induction false} AppendPreservesValid(sha: string -> seq<byte>, chain: Chain,
                                                tx: Transaction, now: string)
    requires ChainValid(sha, chain)
    ensures ChainValid(sha, Append(sha, chain, tx, now))
  {
    var r := Append(sha, chain, tx, now);
    forall i | 1 <= i < |r|
      ensures BlockOk(sha, r, i)
    {
      if i < |chain| {
        assert r[i] == chain[i] && r[i - 1] == chain[i - 1];
        assert BlockOk(sha, chain, i);
      }
    }
  }

  /** The chain built by appending the transactions in order, starting from
      no chain; `times[k]` is the block timestamp of the `k`-th append. */
  function Build(sha: string -> seq<byte>, txs: seq<Transaction>, times: seq<string>): (c: Chain)
    requires |times| == |txs|
    ensures |c| == |txs|
  {
    if |txs| == 0 then []
    else Append(sha, Build(sha, txs[..|txs| - 1], times[..|txs| - 1]), txs[|txs| - 1], times[|txs| - 1])
  }

  /** A chain produced only by appends starts from "0", and its block `i`
      is numbered `i + 1` and holds just the `i`-th transaction. */
  lemma {:induction false} BuiltChainShape(sha: string -> seq<byte>, txs: seq<Transaction>, times: seq<string>,
                                           i: nat)
    requires |times| == |txs| && i < |txs|
    ensures var c := Build(sha, txs, times);
            && c[i].index == i + 1
            && c[i].transactions == [txs[i]]
            && (i == 0 ==> c[0].previousHash == Genesis)
    decreases |txs|
  {
    var n := |txs| - 1;
    var earlier, earlierTimes := txs[..n], times[..n];
    var prefix := Build(sha, earlier, earlierTimes);
    assert Build(sha, txs, times) == Append(sha, prefix, txs[n], times[n]);
    if i < n {
      BuiltChainShape(sha, earlier, earlierTimes, i);
      AppendKeeps(sha, prefix, txs[n], times[n], i);
      assert earlier[i] == txs[i];
    }
  }

  /** A chain produced only by appends verifies. */
  lemma {:induction false} BuiltChainValid(sha: string -> seq<byte>, txs: seq<Transaction>, times: seq<string>)
    requires |times| == |txs|
    ensures ChainValid(sha, Build(sha, txs, times))
  {
    if |txs| > 0 {
      var n := |txs| - 1;
      var prefix := Build(sha, txs[..n], times[..n]);
      BuiltChainValid(sha, txs[..n], times[..n]);
      AppendPreservesValid(sha, prefix, txs[n], times[n]);
      assert Build(sha, txs, times) == Append(sha, prefix, txs[n], times[n]);
    }
  }

  /** Changing block `i >= 1` so that its stored hash no longer matches its
      fields is detected. */
  lemma TamperedBlockDetected(sha: string -> seq<byte>, chain: Chain, i: nat, forged: Block)
    requires 1 <= i < |chain|
    requires forged.hash != CalculateHash(sha, forged)
    ensures !ChainValid(sha, chain[i := forged])
  {
    assert !BlockOk(sha, chain[i := forged], i);
  }

  /** Replacing a block's stored hash breaks the link from its successor. */
  lemma RelinkedBlockDetected(sha: string -> seq<byte>, chain: Chain, i: nat, newHash: string)
    requires ChainValid(sha, chain)
    requires i + 1 < |chain|
    requires newHash != chain[i].hash
    ensures !ChainValid(sha, chain[i := chain[i].(hash := newHash)])
  {
    var t := chain[i := chain[i].(hash := newHash)];
    assert BlockOk(sha, chain, i + 1);
    assert !BlockOk(sha, t, i + 1);
  }

  /** Block 0's hash is never recomputed: any block with the same stored hash
      may replace it, whatever its payload, and the chain still verifies. */
  lemma FirstBlockTamperUndetected(sha: string -> seq<byte>, chain: Chain, forged: Block)
    requires ChainValid(sha, chain)
    requires |chain| >= 1
    requires forged.hash == chain[0].hash
    ensures ChainValid(sha, chain[0 := forged])
  {
    var t := chain[0 := forged];
    forall i | 1 <= i < |t|
      ensures BlockOk(sha, t, i)
    {
      assert BlockOk(sha, chain, i);
    }
  }

  /** Rewriting who performed an action (or which complaint it names) in any
      block goes unnoticed: those fields are not hashed. */
  lemma UserIdNotProtected(sha: string -> seq<byte>, chain: Chain, i: nat, k: nat,
                           userId: string, complaintId: string)
    requires ChainValid(sha, chain)
    requires i < |chain| && k < |chain[i].transactions|
    ensures var t := chain[i].transactions[k].(userId := userId, complaintId := complaintId);
            ChainValid(sha, chain[i := chain[i].(transactions := chain[i].transactions[k := t])])
  {
    var t := chain[i].transactions[k].(userId := userId, complaintId := complaintId);
    var b := chain[i].(transactions := chain[i].transactions[k := t]);
    var c := chain[i := b];
    assert SameHashedFields(chain[i], b);
    HashCoversOnlyHashedFields(sha, chain[i], b);
    forall j | 1 <= j < |c|
      ensures BlockOk(sha, c, j)
    {
      assert BlockOk(sha, chain, j);
    }
  }
}

=== FILE: resale.dfy ===
/** `ResaleService`: posting an item, which must carry an image, and marking
    an item sold. The random file-name part is passed in as `uuid`. */
module ResaleService {
  import opened Wrappers
  import opened Storage
  import Text

  /** `ResaleItem` without its floating-point price. */
  datatype Item = Item(
    name: string,
    category: string,
    description: string,
    imageUrl: string,
    ownerName: string,
    ownerContact: string,
    sold: bool,
    postedDate: int)

  datatype ResaleError = ImageRequired | ItemNotFound

  /** Where uploaded item images are served from. */
  const UploadPath: string := "/uploads/resale/"

  /** The stored file's name for a given random part. */
  function ImageFileName(uuid: string): string {
    "resale_" + uuid + ".jpg"
  }

  /** `postItem`: refuses a missing or empty image; otherwise saves an unsold
      item whose image URL points into the resale upload directory. */
  function PostItem(items: Repo<Item>, name: string, category: string, description: string,
                    ownerName: string, ownerContact: string, image: Option<Upload>,
                    uuid: string, now: int): (r: Result<(Repo<Item>, nat), ResaleError>)
    ensures r.Success? <==> image.Some? && image.value.size > 0
    ensures r.Failure? ==> r.error == ImageRequired
    ensures r.Success? ==>
      var (repo, id) := r.value;
      && id in repo.rows
      && !repo.rows[id].sold
      && Text.IsPrefix(UploadPath + "resale_", repo.rows[id].imageUrl)
      && repo.rows[id].imageUrl == UploadPath + ImageFileName(uuid)
      && repo.rows[id].postedDate == now
      && repo.rows[id].name == name && repo.rows[id].category == category
      && repo.rows[id].description == description
      && repo.rows[id].ownerName == ownerName && repo.rows[id].ownerContact == ownerContact
      && (Valid(items) ==> id !in items.rows && Valid(repo))
      && (Valid(items) ==> forall k :: k in items.rows ==> k in repo.rows && repo.rows[k] == items.rows[k])
  {
    if image.None? || image.value.size == 0 then Failure(ImageRequired)
    else
      var item := Item(name, category, description, UploadPath + ImageFileName(uuid),
                       ownerName, ownerContact, false, now);
      assert (UploadPath + ImageFileName(uuid))[..|UploadPath + "resale_"|] == UploadPath + "resale_";
      Success(Insert(items, item))
  }

  /** `markAsSold`: an unknown id is refused; otherwise only that item's sold
      flag changes, and it becomes true. */
  function MarkAsSold(items: Repo<Item>, id: nat): (r: Result<Repo<Item>, ResaleError>)
    ensures r.Success? <==> id in items.rows
    ensures r.Failure? ==> r.error == ItemNotFound
    ensures r.Success? ==>
      && r.value.rows.Keys == items.rows.Keys
      && r.value.rows[id].sold
      && r.value.rows[id].(sold := items.rows[id].sold) == items.rows[id]
      && forall k :: k in items.rows && k != id ==> r.value.rows[k] == items.rows[k]
  {
    if id !in items.rows then Failure(ItemNotFound)
    else Success(Update(items, id, items.rows[id].(sold := true)))
  }

  /** Marking an item sold a second time changes nothing. */
  lemma MarkAsSoldIdempotent(items: Repo<Item>, id: nat)
    requires id in items.rows
    ensures MarkAsSold(MarkAsSold(items, id).value, id) == MarkAsSold(items, id)
  {
    var once := MarkAsSold(items, id).value;
    assert once.rows[id := once.rows[id].(sold := true)] == once.rows;
  }

  /** A freshly posted item can be marked sold, which changes nothing about
      it but the sold flag. */
  lemma PostThenSell(items: Repo<Item>, name: string, category: string, description: string,
                     ownerName: string, ownerContact: string, image: Option<Upload>,
                     uuid: string, now: int)
    requires Valid(items)
    requires PostItem(items, name, category, description, ownerName, ownerContact, image, uuid, now).Success?
    ensures var (repo, id) := PostItem(items, name, category, description, ownerName, ownerContact,
                                       image, uuid, now).value;
            && MarkAsSold(repo, id).Success?
            && MarkAsSold(repo, id).value.rows[id] == repo.rows[id].(sold := true)
            && !repo.rows[id].sold
            && forall k :: k in items.rows ==> MarkAsSold(repo, id).value.rows[k] == items.rows[k]
  {
  }
}

=== FILE: storage.dfy ===
/** What the services take from the persistence layer: a table whose rows are
    keyed by an identity column, and an uploaded file. */
module Storage {

  /** A table with a database-generated identity key: `nextId` is the value
      the identity column hands out next. */
  datatype Repo<T> = Repo(rows: map<nat, T>, nextId: nat)

  /** Every key already handed out is below the next one. */
  predicate Valid<T>(repo: Repo<T>) {
    forall k :: k in repo.rows ==> k < repo.nextId
  }

  /** An empty table; identity columns start at 1. */
  function Empty<T>(): (repo: Repo<T>)
    ensures Valid(repo) && |repo.rows| == 0
  {
    Repo(map[], 1)
  }

  /** `save` of a new entity: stores it under a fresh key and returns the key. */
  function Insert<T>(repo: Repo<T>, row: T): (r: (Repo<T>, nat))
    ensures r.1 == repo.nextId
    ensures r.0.rows == repo.rows[r.1 := row]
    ensures Valid(repo) ==> r.1 !in repo.rows && Valid(r.0)
  {
    (Repo(repo.rows[repo.nextId := row], repo.nextId + 1), repo.nextId)
  }

  /** `save` of an existing entity: replaces its row. */
  function Update<T>(repo: Repo<T>, key: nat, row: T): (r: Repo<T>)
    requires key in repo.rows
    ensures r.rows.Keys == repo.rows.Keys
    ensures r.rows[key] == row
    ensures forall k :: k in repo.rows && k != key ==> r.rows[k] == repo.rows[k]
    ensures Valid(repo) ==> Valid(r)
  {
    repo.(rows := repo.rows[key := row])
  }

  /** An uploaded `MultipartFile`; only its size matters to the services
      (`isEmpty` is a zero size). Its bytes go to disk and are not modelled. */
  datatype Upload = Upload(size: nat)
}

=== FILE: text.dfy ===
/** The few `java.lang.String` operations the services rely on: `contains`,
    `toLowerCase`, and `substring(0, n)` used as a length cap. */
module Text {

  predicate IsPrefix(p: string, s: string) {
    |p| <= |s| && s[..|p|] == p
  }

  /** `p` occurs in `s` starting at position `i`. */
  predicate OccursAt(s: string, p: string, i: int) {
    0 <= i && i + |p| <= |s| && s[i..i + |p|] == p
  }

  /** `s.contains(p)`, computed by scanning the suffixes of `s`. */
  predicate Contains(s: string, p: string)
    decreases |s|
  {
    IsPrefix(p, s) || (|s| > 0 && Contains(s[1..], p))
  }

  /** The scan agrees with the positional definition of an occurrence. */
  lemma {:induction false} ContainsIffOccurs(s: string, p: string)
    ensures Contains(s, p) <==> exists i :: OccursAt(s, p, i)
    decreases |s|
  {
    if Contains(s, p) {
      if IsPrefix(p, s) {
        assert OccursAt(s, p, 0);
      } else {
        ContainsIffOccurs(s[1..], p);
        var j :| OccursAt(s[1..], p, j);
        assert s[1..][j..j + |p|] == s[j + 1..j + 1 + |p|];
        assert OccursAt(s, p, j + 1);
      }
    }
    if exists i :: OccursAt(s, p, i) {
      var i :| OccursAt(s, p, i);
      if i == 0 {
        assert IsPrefix(p, s);
      } else {
        assert s[1..][i - 1..i - 1 + |p|] == s[i..i + |p|];
        assert OccursAt(s[1..], p, i - 1);
        ContainsIffOccurs(s[1..], p);
      }
    }
  }

  /** Text surrounding an occurrence never hides it. */
  lemma ContainsExtend(pre: string, s: string, post: string, p: string)
    requires Contains(s, p)
    ensures Contains(pre + s + post, p)
  {
    ContainsIffOccurs(s, p);
    var i :| OccursAt(s, p, i);
    var w := pre + s + post;
    assert w[|pre| + i..|pre| + i + |p|] == s[i..i + |p|];
    assert OccursAt(w, p, |pre| + i);
    ContainsIffOccurs(w, p);
  }

  /** `Character.toLowerCase` restricted to ASCII letters. */
  function LowerChar(c: char): (d: char)
    ensures 'A' <= c <= 'Z' ==> 'a' <= d <= 'z'
    ensures !('A' <= c <= 'Z') ==> d == c
  {
    if 'A' <= c <= 'Z' then (c as int - 'A' as int + 'a' as int) as char else c
  }

  function ToLower(s: string): (r: string)
    ensures |r| == |s|
    ensures forall i :: 0 <= i < |s| ==> r[i] == LowerChar(s[i])
  {
    if |s| == 0 then [] else [LowerChar(s[0])] + ToLower(s[1..])
  }

  /** Lower-casing twice is lower-casing once. */
  lemma ToLowerIdempotent(s: string)
    ensures ToLower(ToLower(s)) == ToLower(s)
  {
  }

  /** `s.substring(0, n)` applied only when `s` is longer than `n`. */
  function Truncate(s: string, n: nat): (r: string)
    ensures |r| <= n
    ensures |s| <= n ==> r == s
    ensures |s| > n ==> |r| == n
    ensures IsPrefix(r, s)
  {
    if |s| > n then s[..n] else s
  }
}

=== FILE: users.dfy ===
/** `User` records, the users table, and `UserService`: registration with
    role-derived ids, and the password-reset token round.

    The users table is the sequence of rows `findAll` returns; `save` merges
    by `userId` (an existing row with that id is replaced, otherwise a row is
    added). Times are whole hours. BCrypt salts every encoding, so it is not a
    function of the password: the encoder's output is passed in. */
module Users {
  import opened Wrappers
  import Decimal

  datatype Role = Student | Warden | Staff | Admin

  datatype User = User(
    userId: string,
    name: string,
    email: string,
    password: string,
    role: Role,
    roomNumber: Option<string>,
    resetToken: Option<string>,
    resetExpiry: Option<int>)

  type Table = seq<User>

  datatype UserError =
    | EmailTaken
    | IrnRequired
    | InvalidRoleForId
    | IdTaken
    | UserNotFound
    | InvalidToken
    | AmbiguousToken
    | MissingExpiry
    | TokenExpired

  /** The fields of `CreateUserRequest` registration reads (the raw password
      is replaced by its encoding, passed separately). */
  datatype Registration = Registration(
    name: string,
    email: string,
    role: Role,
    roomNumber: Option<string>,
    irn: Option<string>)

  /** Index of the first row satisfying `p`. */
  function Find(users: Table, p: User -> bool): (r: Option<nat>)
    ensures r.Some? ==> r.value < |users| && p(users[r.value])
    ensures r.Some? ==> forall j :: 0 <= j < r.value ==> !p(users[j])
    ensures r.None? ==> forall j :: 0 <= j < |users| ==> !p(users[j])
  {
    if |users| == 0 then None
    else if p(users[0]) then Some(0)
    else match Find(users[1..], p)
      case None => None
      case Some(i) => Some(i + 1)
  }

  /** Number of rows satisfying `p`. */
  function Count(users: Table, p: User -> bool): (n: nat)
    ensures n <= |users|
    ensures n == 0 <==> forall j :: 0 <= j < |users| ==> !p(users[j])
  {
    if |users| == 0 then 0 else (if p(users[0]) then 1 else 0) + Count(users[1..], p)
  }

  lemma {:induction false} CountAppend(xs: Table, ys: Table, p: User -> bool)
    ensures Count(xs + ys, p) == Count(xs, p) + Count(ys, p)
  {
    if |xs| == 0 {
      assert xs + ys == ys;
    } else {
      assert (xs + ys)[1..] == xs[1..] + ys;
      CountAppend(xs[1..], ys, p);
    }
  }

  function IndexOfId(users: Table, id: string): Option<nat> {
    Find(users, (u: User) => u.userId == id)
  }

  function IndexOfEmail(users: Table, email: string): Option<nat> {
    Find(users, (u: User) => u.email == email)
  }

  function IndexOfToken(users: Table, token: string): Option<nat> {
    Find(users, (u: User) => u.resetToken == Some(token))
  }

  /** `userRepository.existsByEmail`. */
  predicate EmailExists(users: Table, email: string) {
    IndexOfEmail(users, email).Some?
  }

  /** `userRepository.countByRole`. */
  function CountRole(users: Table, role: Role): nat {
    Count(users, (u: User) => u.role == role)
  }

  function CountToken(users: Table, token: string): nat {
    Count(users, (u: User) => u.resetToken == Some(token))
  }

  /** `userRepository.findById`. */
  function FindById(users: Table, id: string): (r: Option<User>)
    ensures r.Some? ==> r.value in users && r.value.userId == id
    ensures r.None? ==> forall u :: u in users ==> u.userId != id
  {
    match IndexOfId(users, id)
    case Some(i) => Some(users[i])
    case None => None
  }

  /** `userRepository.save`: JPA merges by primary key. */
  function Save(users: Table, u: User): (r: Table)
    ensures u in r
    ensures IndexOfId(users, u.userId).None? ==> r == users + [u]
    ensures IndexOfId(users, u.userId).Some? ==> r == users[IndexOfId(users, u.userId).value := u]
  {
    match IndexOfId(users, u.userId)
    case Some(i) =>
      assert users[i := u][i] == u;
      users[i := u]
    case None => users + [u]
  }

  /** The table's key and unique-column constraints: ids and emails distinct. */
  predicate WellFormed(users: Table) {
    forall i, j :: 0 <= i < j < |users| ==>
      users[i].userId != users[j].userId && users[i].email != users[j].email
  }

  /** The three-letter id prefix of each role that gets generated ids. */
  function IdPrefix(role: Role): (p: string)
    requires role != Student
    ensures |p| == 3
  {
    match role
    case Warden => "WDN"
    case Staff => "STF"
    case Admin => "ADM"
  }

  /** `generateRoleBasedId`: the role's prefix followed by the number of users
      already holding the role plus one, zero-padded to three digits. */
  function GenerateRoleBasedId(users: Table, role: Role): (r: Result<string, UserError>)
    ensures r.Success? <==> role in {Warden, Staff, Admin}
    ensures r.Failure? ==> r.error == InvalidRoleForId
    ensures r.Success? ==>
      && |r.value| >= 6
      && r.value[..3] == IdPrefix(role)
      && Decimal.AllDigits(r.value[3..])
      && Decimal.ParseDigits(r.value[3..]) == CountRole(users, role) + 1
      && |r.value[3..]| == Decimal.Max(3, |Decimal.NatToString(CountRole(users, role) + 1)|)
  {
    if role == Student then Failure(InvalidRoleForId)
    else
      var id := IdPrefix(role) + Decimal.Pad3(CountRole(users, role) + 1);
      assert id[3..] == Decimal.Pad3(CountRole(users, role) + 1);
      Success(id)
  }

  /** The id a registration would take: the IRN for a student (required and
      non-empty), otherwise a generated id. */
  function DeriveUserId(users: Table, req: Registration): (r: Result<string, UserError>)
    ensures req.role == Student ==>
      (r.Success? <==> req.irn.Some? && req.irn.value != "")
    ensures req.role == Student && r.Success? ==> r.value == req.irn.value
    ensures req.role == Student && r.Failure? ==> r.error == IrnRequired
    ensures req.role != Student ==> r == GenerateRoleBasedId(users, req.role)
  {
    if req.role == Student then
      if req.irn.None? || req.irn.value == "" then Failure(IrnRequired)
      else Success(req.irn.value)
    else GenerateRoleBasedId(users, req.role)
  }

  function NewUser(req: Registration, id: string, encodedPassword: string): User {
    User(id, req.name, req.email, encodedPassword, req.role, req.roomNumber, None, None)
  }

  /** `registerUser` as written: rejects a registered email, derives the id,
      then saves. The save merges by id, so a derived id that is already in
      use replaces that row. */
  function RegisterUser(users: Table, req: Registration, encodedPassword: string)
      : (r: Result<Table, UserError>)
    ensures EmailExists(users, req.email) ==> r == Failure(EmailTaken)
    ensures !EmailExists(users, req.email) && DeriveUserId(users, req).Failure? ==>
              r == Failure(DeriveUserId(users, req).error)
    ensures r.Success? ==>
      && !EmailExists(users, req.email)
      && DeriveUserId(users, req).Success?
      && NewUser(req, DeriveUserId(users, req).value, encodedPassword) in r.value
    ensures r.Success? ==>
      var u := NewUser(req, DeriveUserId(users, req).value, encodedPassword);
      && (IndexOfId(users, u.userId).None? ==> r.value == users + [u])
      && (IndexOfId(users, u.userId).Some? ==> r.value == users[IndexOfId(users, u.userId).value := u])
  {
    if EmailExists(users, req.email) then Failure(EmailTaken)
    else
      var id :- DeriveUserId(users, req);
      Success(Save(users, NewUser(req, id, encodedPassword)))
  }

  /** The overwrite: a second student registering an IRN already in use, with
      a different email, replaces the first student's account. */
  lemma RegisterUserOverwritesAccount()
    ensures var first := User("IRN1", "A", "a@hostel", "pw-a", Student, None, None, None);
            var req := Registration("B", "b@hostel", Student, None, Some("IRN1"));
            var r := RegisterUser([first], req, "pw-b");
            && WellFormed([first])
            && r.Success?
            && first !in r.value
            && !EmailExists(r.value, "a@hostel")
  {
    var first := User("IRN1", "A", "a@hostel", "pw-a", Student, None, None, None);
    var req := Registration("B", "b@hostel", Student, None, Some("IRN1"));
    assert IndexOfEmail([first], "b@hostel") == None;
    assert IndexOfId([first], "IRN1") == Some(0);
    var r := RegisterUser([first], req, "pw-b");
    assert r.value == [NewUser(req, "IRN1", "pw-b")];
    assert IndexOfEmail(r.value, "a@hostel") == None;
  }

  /** Registration that refuses an id already in use, so no account is ever
      replaced. */
  function RegisterUserChecked(users: Table, req: Registration, encodedPassword: string)
      : (r: Result<Table, UserError>)
    ensures EmailExists(users, req.email) ==> r == Failure(EmailTaken)
    ensures r.Success? ==>
      && DeriveUserId(users, req).Success?
      && r.value == users + [NewUser(req, DeriveUserId(users, req).value, encodedPassword)]
    ensures !EmailExists(users, req.email) && DeriveUserId(users, req).Success? ==>
      (r.Success? <==> IndexOfId(users, DeriveUserId(users, req).value).None?)
  {
    if EmailExists(users, req.email) then Failure(EmailTaken)
    else
      var id :- DeriveUserId(users, req);
      if IndexOfId(users, id).Some? then Failure(IdTaken)
      else Success(users + [NewUser(req, id, encodedPassword)])
  }

  /** Checked registration keeps every existing account and the table's
      uniqueness constraints. */
  lemma RegisterCheckedPreserves(users: Table, req: Registration, encodedPassword: string)
    requires WellFormed(users)
    requires RegisterUserChecked(users, req, encodedPassword).Success?
    ensures var t := RegisterUserChecked(users, req, encodedPassword).value;
            && WellFormed(t)
            && t[..|users|] == users
  {
    var t := RegisterUserChecked(users, req, encodedPassword).value;
    var u := t[|users|];
    assert IndexOfEmail(users, req.email).None?;
    assert IndexOfId(users, u.userId).None?;
    forall i, j | 0 <= i < j < |t|
      ensures t[i].userId != t[j].userId && t[i].email != t[j].email
    {
      if j == |users| {
        assert t[i] == users[i];
      }
    }
  }

  /** Two registrations of the same role in a row get different ids, because
      the first one raises the role's count. */
  lemma NextGeneratedIdDiffers(users: Table, req: Registration, encodedPassword: string)
    requires req.role != Student
    requires RegisterUserChecked(users, req, encodedPassword).Success?
    ensures var t := RegisterUserChecked(users, req, encodedPassword).value;
            GenerateRoleBasedId(t, req.role).value != GenerateRoleBasedId(users, req.role).value
  {
    var t := RegisterUserChecked(users, req, encodedPassword).value;
    var u := t[|users|];
    CountAppend(users, [u], (v: User) => v.role == req.role);
    assert [u][1..] == [];
    var a := GenerateRoleBasedId(users, req.role).value;
    var b := GenerateRoleBasedId(t, req.role).value;
    assert Decimal.ParseDigits(b[3..]) == Decimal.ParseDigits(a[3..]) + 1;
  }

  /** `generatePasswordResetToken`: the user found by email gets the token and
      an expiry one hour from now. */
  function GenerateResetToken(users: Table, email: string, token: string, now: int)
      : (r: Result<Table, UserError>)
    ensures r.Success? <==> EmailExists(users, email)
    ensures r.Failure? ==> r.error == UserNotFound
    ensures r.Success? ==>
      var i := IndexOfEmail(users, email).value;
      && |r.value| == |users|
      && r.value[i] == users[i].(resetToken := Some(token), resetExpiry := Some(now + 1))
      && forall j :: 0 <= j < |users| && j != i ==> r.value[j] == users[j]
  {
    match IndexOfEmail(users, email)
    case None => Failure(UserNotFound)
    case Some(i) => Success(users[i := users[i].(resetToken := Some(token), resetExpiry := Some(now + 1))])
  }

  /** `resetPassword`: the single user holding `token` gets the new password,
      provided the expiry is not before `now`; token and expiry are cleared.
      A token held by no row, or by several rows (the repository's
      single-result lookup throws), is refused. */
  function ResetPassword(users: Table, token: string, encodedPassword: string, now: int)
      : (r: Result<Table, UserError>)
    ensures CountToken(users, token) == 0 ==> r == Failure(InvalidToken)
    ensures CountToken(users, token) > 1 ==> r == Failure(AmbiguousToken)
    ensures r.Success? ==>
      var i := IndexOfToken(users, token).value;
      && CountToken(users, token) == 1
      && users[i].resetExpiry.Some? && now <= users[i].resetExpiry.value
      && |r.value| == |users|
      && r.value[i] == users[i].(password := encodedPassword, resetToken := None, resetExpiry := None)
      && forall j :: 0 <= j < |users| && j != i ==> r.value[j] == users[j]
    ensures CountToken(users, token) == 1 ==>
      var u := users[IndexOfToken(users, token).value];
      (r.Success? <==> u.resetExpiry.Some? && now <= u.resetExpiry.value)
  {
    var n := CountToken(users, token);
    if n == 0 then Failure(InvalidToken)
    else if n > 1 then Failure(AmbiguousToken)
    else
      var i := IndexOfToken(users, token).value;
      var u := users[i];
      if u.resetExpiry.None? then Failure(MissingExpiry)
      else if u.resetExpiry.value < now then Failure(TokenExpired)
      else Success(users[i := u.(password := encodedPassword, resetToken := None, resetExpiry := None)])
  }

  lemma {:induction false} CountOnlyAt(users: Table, i: nat, p: User -> bool)
    requires i < |users| && Count(users, p) == 1 && p(users[i])
    ensures forall j :: 0 <= j < |users| && j != i ==> !p(users[j])
  {
    if i == 0 {
      assert Count(users[1..], p) == 0;
      forall j | 0 < j < |users|
        ensures !p(users[j])
      {
        assert users[j] == users[1..][j - 1];
      }
    } else {
      assert users[i] == users[1..][i - 1];
      CountOnlyAt(users[1..], i - 1, p);
      forall j | 0 <= j < |users| && j != i
        ensures !p(users[j])
      {
        if j > 0 {
          assert users[j] == users[1..][j - 1];
        }
      }
    }
  }

  /** A reset token works once: after a successful reset no row holds it,
      so presenting it again is refused as unknown. */
  lemma ResetTokenSingleUse(users: Table, token: string, p1: string, p2: string, now: int, later: int)
    requires ResetPassword(users, token, p1, now).Success?
    ensures ResetPassword(ResetPassword(users, token, p1, now).value, token, p2, later)
              == Failure(InvalidToken)
  {
    var t := ResetPassword(users, token, p1, now).value;
    var i := IndexOfToken(users, token).value;
    var p := (u: User) => u.resetToken == Some(token);
    CountOnlyAt(users, i, p);
    assert forall j :: 0 <= j < |t| ==> !p(t[j]);
  }

  /** A token reset within its hour succeeds; one presented later fails. */
  lemma ResetWithinTheHour(users: Table, email: string, token: string, pw: string, now: int, at: int)
    requires EmailExists(users, email)
    requires CountToken(users, token) == 0
    ensures var t := GenerateResetToken(users, email, token, now).value;
            ResetPassword(t, token, pw, at).Success? <==> at <= now + 1
  {
    var i := IndexOfEmail(users, email).value;
    var t := GenerateResetToken(users, email, token, now).value;
    var p := (u: User) => u.resetToken == Some(token);
    assert forall j :: 0 <= j < |users| ==> !p(users[j]);
    assert t == users[..i] + [t[i]] + users[i + 1..];
    CountAppend(users[..i] + [t[i]], users[i + 1..], p);
    CountAppend(users[..i], [t[i]], p);
    assert [t[i]][1..] == [];
    assert CountToken(t, token) == 1;
    assert IndexOfToken(t, token) == Some(i);
  }
}

=== FILE: wrappers.dfy ===
/** Failure-compatible wrappers used by every service module: `Option` for the
    source's nullable references and `Result` for an operation that either
    returns a value or throws. */
module Wrappers {

  datatype Option<+T> = None | Some(value: T)

  /** Either the value an operation returns, or the error it throws. */
  datatype Result<+T, +E> = Success(value: T) | Failure(error: E) {

    predicate IsFailure() {
      Failure?
    }

    function PropagateFailure<U>(): Result<U, E>
      requires Failure?
    {
      Failure(error)
    }

    function Extract(): T
      requires Success?
    {
      value
    }
  }
}
